=== FILE: README.md ===
# Auction site core, modelled in Dafny

This project models the core of an auction-site back end. A host keeps a store of four tables: sites, users, sessions and auctions. Callers work through handles.

- The host façade creates, loads and lists sites.
- A site logs users in, creates users and reaps expired sessions.
- A session creates auctions and logs out.
- A user lists the auctions it has won and deletes itself.
- An auction reports its leader and price, is deleted, and takes bids by proxy bidding.

The store is one immutable value `Store.Db`. It holds the four tables as maps from primary key to record, plus the identity counters that hand out new keys. Every operation is a function from a store, and the caller's arguments, to a `Result`. The result is either an error of the auction-site taxonomy or a value together with the next store. The decision of a bid lives separately in `Bidding.Step`, as a pure function on an auction's standing: current price, highest proxy bid and the leader.

Modules, one per part of the program:

- `Wrappers`: `Option`, `Result`, `Outcome`.
- `Bidding`: the bid decision procedure of `Auction.Bid`, and replay of a sequence of bids.
- `Store`: records, the `Global` limits, the error taxonomy, the translation done by `MyDbContext.SaveChanges`, handles, live checks, lookups, and the integrity invariant `Valid`.
- `Sites`, `Users`, `Sessions`, `Auctions`: the operations of the four entity classes of Data.cs.
- `Hosting`: `HostFactory` and `Host` of Logic.cs.
- `Integrity`: every operation that changes the store keeps `Valid`, and so does any trace of operations from the empty store.
- `Scenarios`: properties relating several operations. These cover round trips, the session lifecycle, expiry boundaries, cascades, and the worked proxy-bidding example.

Time is a parameter `now`, in whole seconds. Strings are sequences of Unicode scalar values; their lengths are counted as .NET counts them, in UTF-16 code units (`Store.Utf16Length`), so a character beyond U+FFFF counts twice. Prices are `real`. The password hash is a parameter `hash: string -> seq<bv8>`.

Where the documented behaviour and the code disagree, the model follows the code:

- User names must be unique across the whole store, not per site (Data.cs:271).
- A minimum bid increment of 0 is accepted (Logic.cs:106; Scenarios.ZeroIncrementIsAccepted).
- A leader whose maximum is 0 is never displaced (Data.cs:789).
- Deleting a user clears its leads, so an auction may keep a non-zero maximum with no leader (Data.cs:428-434).
- The reaper removes a session at the exact second its validity ends (Data.cs:325). Creating an auction (Data.cs:531) and bidding (Data.cs:711) still accept it at that second.

## Model

| member | source | states |
|---|---|---|
| Bidding.Step | Data.cs:724-831 | A bid is accepted exactly when the offer reaches the price, is at least price plus increment when someone leads, and is at least maximum plus increment when the bidder already leads. A rejected bid changes nothing. The lead can only stay or pass to the bidder, and a new leader's offer becomes the maximum. With a non-negative increment the standing stays consistent and the price never drops. |
| Bidding.Rejected | Data.cs:724-741 | Decides the five early returns of Bid in source order: below the price; below price plus increment while someone leads; the leader below its maximum plus increment; and the two tests for a non-leader. Step accepts exactly the offers it does not reject, and Bidding.LaterRejectionsAreRedundant shows the last two never decide. |
| Bidding.Replay | Data.cs:686-833 | Over any sequence of bids with a non-negative increment, the standing stays consistent and the final price is at least the starting price. |
| Bidding.LaterRejectionsAreRedundant | Data.cs:724-741 | The five early rejections reduce to the first three: the checks at lines 734 and 739 never fire on their own. |
| Bidding.FirstBidTakesLead | Data.cs:756-769 | On an auction nobody leads, an offer at or above the price wins at the unchanged price, and the offer becomes the maximum. |
| Bidding.LeaderRaisesMaximum | Data.cs:726-786 | The leader's bid is accepted exactly when it clears both price plus increment and maximum plus increment. Then only the maximum changes, to the offer. |
| Bidding.CompetitorTakesLead | Data.cs:789-810 | A competitor offering above a non-zero maximum takes the lead. The price becomes the smaller of the offer and the old maximum plus the increment. |
| Bidding.LeaderDefends | Data.cs:816-831 | Any other accepted competing bid keeps leader and maximum. The price becomes the smaller of the maximum and the offer plus the increment. |
| Bidding.ZeroMaximumLeaderIsNeverDisplaced | Data.cs:789 | A leader whose recorded maximum is 0 keeps the lead against every offer. |
| Store.SaveChangesError | Data.cs:44-67 | A store fault becomes NameAlreadyInUse exactly when it is an update fault whose inner SQL error is 2601. Every other fault becomes UnavailableDb. |
| Store.FindUser | Data.cs:705-710 | Returns a user of the given site with the given name. Returns none exactly when no such user exists. |
| Store.FindByCredentials | Data.cs:241-243 | Returns a user of the site with the given name and password hash. Returns none exactly when no user matches. |
| Store.FindSite | Logic.cs:141-144 | Returns a site with the given name. Returns none exactly when no site has it. |
| Store.EmptyIsValid | Logic.cs:28-33 | A freshly created store satisfies every integrity rule. |
| Store.Utf16Length | Data.cs:152-154 | The length .NET reports for a string, in UTF-16 code units: at least the number of characters and at most twice it. |
| Store.Utf16LengthIsCharCount | Data.cs:152-154 | The code units equal the characters exactly when no character lies beyond U+FFFF. |
| Store.Utf16LengthConcat | Data.cs:152-154 | Code units add up over concatenation. |
| Store.SiteLive | Data.cs:310-318 | Site.CheckIfDeleted: the site is live when some stored site carries the handle's name. |
| Store.UserLive | Data.cs:443-451 | User.CheckIfDeleted: the user is live when some stored user of the handle's site carries its name. |
| Store.SessionLive | Data.cs:576-584 | Session.CheckIfDeleted: the session is live when a row with its key exists. |
| Store.AuctionLive | Data.cs:835-843 | Auction.CheckIfDeleted: the auction is live when a row with its key exists on the handle's site. |
| Store.LiveChecksMatchLookups | Data.cs:443-451 | The site and user live checks succeed exactly when the lookup by name finds a row. |
| Sites.CheckUsernameAndPassword | Data.cs:148-155 | Passes exactly when both are present, the name is 3 to 64 UTF-16 code units long and the password at least 4. A missing value gives ArgumentNull, otherwise a failure gives Argument. |
| Sites.Login | Data.cs:234-263 | Errors come in order: a deleted site, then bad arguments. Credentials that match no user give no session and leave the store unchanged, and conversely. Matching credentials give that user's session when the user's SessionId and session row agree: a new one if neither exists, the refreshed one if both do. The session is valid until now plus the site's expiration, and only that session and user change. A user whose SessionId is set but whose session row is gone gets UnavailableDb. |
| Sites.OpenSession | Data.cs:246-253 | Succeeds exactly when no session row carries the user's key, and then adds that one row keyed by the user, records it on the user and returns its handle. For a user of the site this is a login: valid until now plus the expiration, nothing else changed. A key already taken gives the duplicate-key error 2627. |
| Sites.RefreshSession | Data.cs:254-261 | Always succeeds with the user's existing session, keeps the session keys and the users, and for a user of the site is a login: the session now ends at now plus the expiration and nothing else changes. |
| Sites.LoginIntended | Data.cs:234-263 | Same errors as Login, and credentials that match no user give no session with the store unchanged. Matching credentials always yield the matching user's session, whatever the SessionId column says, with the same effects as Login. |
| Sites.CreateUser | Data.cs:264-288 | Errors come in order: a deleted site, bad arguments, then a name taken anywhere in the store. A live site with valid arguments and a free name succeeds unless SaveChanges faults, and a fault gives its translated error. On success exactly one user is added, with the next key, the hashed password and no session, and nothing else changes. |
| Sites.Delete | Data.cs:289-302 | A deleted site is refused, and a live one is always deleted. Exactly the sites of that name go, with their users, those users' sessions and the auctions those users sell. Everything else remains unchanged. |
| Sites.Now | Data.cs:304-308 | Returns the clock's time exactly when the site still exists, and InvalidOperation otherwise. |
| Scenarios.SiteClockStopsWithSite | Data.cs:304-308 | On a live site Now returns the caller's time; once the site is deleted, Now on the same handle gives InvalidOperation. |
| Sites.OnRingingEvent | Data.cs:320-329 | Keeps exactly the sessions that are of another site or still valid (validUntil later than now), unchanged. Every remaining session of the site has a validity ending after now. Nothing else changes. |
| Sites.AuctionsOf | Data.cs:193-233 | Returns exactly the site's auctions, or with the filter on, only those ending now or later. A deleted site is refused. |
| Users.WonAuctions | Data.cs:386-404 | Returns exactly the auctions that have ended by now and whose leader carries the user's name. A deleted user is refused. |
| Users.Delete | Data.cs:405-441 | Refused if the user is gone or sells an auction not yet ended. In a consistent store, a live user that passes that guard is deleted. On deletion the user goes, its sessions and sold auctions cascade, and the auctions it leads stay without a leader. |
| Users.SellsOpenAuction | Data.cs:411-423 | The guard of User.Delete: some auction whose seller key is the handle's key ends now or later. |
| Users.ClearWinner | Data.cs:428-434 | The auction no longer names the user as leader; a leader other than the user is kept; price, maximum and every other field are unchanged. |
| Sessions.CreateAuction | Data.cs:525-560 | Errors come in order: an expired or missing session, a null description, an empty description, a negative price, an end in the past. A usable session of an existing site and user, with a non-empty description, a price of at least 0 and an end not in the past, always succeeds. On success exactly one auction is added: the session's user sells it, it has the starting price and no leader, and the session slides to now plus the site's expiration. |
| Sessions.Logout | Data.cs:562-574 | Removes exactly the session row, and fails with InvalidOperation when that row is gone. The user's SessionId column is not touched. |
| Auctions.CurrentWinner | Data.cs:642-655 | A deleted auction is refused. A live auction nobody leads gives none. A live auction with a leader gives the leader exactly when the leader's row exists, as a handle of the auction's site with the leader's name. |
| Auctions.CurrentPrice | Data.cs:657-668 | Returns the current price exactly when the auction is live, and InvalidOperation otherwise. |
| Auctions.Delete | Data.cs:670-684 | A live auction's row goes and nothing else changes. Otherwise the result is InvalidOperation. |
| Auctions.Bid | Data.cs:686-833 | Errors come in source order: auction ended or gone, negative offer, null session, deleted session, unknown bidder, then expired session, seller bidding, or foreign site. A bid passing all of these on an auction whose site exists always gets an answer. A refused bid leaves the store unchanged. An accepted bid applies Step to the auction's standing and slides the bidder's session; nothing else changes. |
| Auctions.BidderAdmitted | Data.cs:711-712 | The guard after the bidder lookup: the session has not expired, the bidder is not the seller (by name, as User.Equals compares), and the bidder belongs to the auction's site. |
| Hosting.CreateHost | Logic.cs:20-36 | A null connection string is refused with ArgumentNull. Otherwise the store starts empty and consistent. |
| Hosting.LoadHost | Logic.cs:39-60 | A null connection string or clock factory is refused with ArgumentNull. Otherwise the host keeps both. |
| Scenarios.CreatedHostLoads | Logic.cs:20-60 | A connection string CreateHost accepts, with any clock factory, loads a host that keeps both. |
| Hosting.CheckSiteName | Logic.cs:77-82 | Passes exactly for a present name of 1 to 128 UTF-16 code units. A missing name gives ArgumentNull, otherwise a failure gives Argument. |
| Hosting.CreateSite | Logic.cs:103-134 | Errors come in order: a bad name, parameters out of range, a name already in use, then a store fault translated by SaveChanges. Otherwise the site is created: exactly one well-formed site is added under the next key, and nothing else changes. |
| Hosting.ParametersInRange | Logic.cs:106-116 | Timezone within -12 to 12, a positive session expiration and a non-negative minimum increment: the single test of line 106, which the later tests repeat. |
| Hosting.LoadSite | Logic.cs:136-156 | A bad name is refused; an unknown name gives InexistentName. An existing name loads: the result is the stored site and key, with an alarm of the site's timezone every 300000 ms. |
| Hosting.GetSiteInfos | Logic.cs:84-102 | Contains a (name, timezone) pair exactly when some stored site has that name and timezone. |
| Integrity.CreateSiteKeepsValid | Logic.cs:103-134 | Creating a site keeps the store consistent. |
| Integrity.CreateUserKeepsValid | Data.cs:264-288 | Creating a user keeps the store consistent. |
| Integrity.LoginKeepsValid | Data.cs:234-263 | Logging in keeps the store consistent. |
| Integrity.OpenSessionKeepsValid | Data.cs:246-253 | Opening a session for a user of the site that has none succeeds and keeps the store consistent. |
| Integrity.RefreshSessionKeepsValid | Data.cs:254-261 | Sliding a user's existing session keeps the store consistent. |
| Integrity.LoginIntendedKeepsValid | Data.cs:234-263 | The corrected login keeps the store consistent. |
| Integrity.DeleteSiteKeepsValid | Data.cs:289-302 | Deleting a site, with its cascades, keeps the store consistent. |
| Integrity.ReapingKeepsValid | Data.cs:320-329 | Reaping keeps the store consistent. |
| Integrity.DeleteUserKeepsValid | Data.cs:405-441 | Deleting a user, with its cascades and cleared leads, keeps the store consistent. |
| Integrity.CreateAuctionKeepsValid | Data.cs:525-560 | Creating an auction keeps the store consistent. |
| Integrity.LogoutKeepsValid | Data.cs:562-574 | Logging out keeps the store consistent. |
| Integrity.DeleteAuctionKeepsValid | Data.cs:670-684 | Deleting an auction keeps the store consistent. |
| Integrity.BidKeepsValid | Data.cs:686-833 | Bidding keeps the store consistent: the new leader belongs to the site and is not the seller, and the standing stays consistent. |
| Integrity.ApplyKeepsValid | Data.cs:74-91 | Any single call on the façade leaves a consistent store consistent, whether it succeeds or fails. That includes both the program's login and the corrected one. |
| Integrity.RunKeepsValid | Data.cs:74-91 | A whole trace of calls, each at its own time, leads from a consistent store to a consistent one. |
| Integrity.ReachableStoresAreValid | Data.cs:74-108 | Every store reachable from a freshly created one by the program's calls is consistent; the corrected login may be mixed in too. Consistent means: keys below their counters, site names unique (index NameUnique), user names unique, and every foreign key of the store's model resolved. |
| Scenarios.ProxyBiddingWalkThrough | Data.cs:756-831 | With increment 1 and starting price 10: A offers 10 and leads at 10; B offers 15 and leads at 11 with maximum 15; A offers 20 and leads at 16 with maximum 20. |
| Scenarios.ReplayConcat | Data.cs:686-833 | Replaying two histories one after the other equals replaying their concatenation. |
| Scenarios.PriceNeverDecreases | Data.cs:686-833 | After any prefix of a bid history, the price is no higher than after any longer prefix. |
| Scenarios.FirstBidMakesBidderWinner | Data.cs:756-769 | An admitted bid on an auction nobody leads, reaching the price, is accepted. CurrentWinner then reports the bidder and the price is unchanged. |
| Scenarios.LogoutTwiceFails | Data.cs:562-574 | A second logout of the same session fails with InvalidOperation. |
| Scenarios.CredentialsAreUnique | Data.cs:241-243 | In a consistent store the credentials query finds exactly the one matching user. |
| Scenarios.SecondLoginRefreshes | Data.cs:254-261 | A second login without logout returns the same session, now valid until the later time plus the expiration. |
| Scenarios.ReloginAfterLogoutFails | Data.cs:246-256 | As written: after a login and a logout, logging in again with the same credentials yields UnavailableDb. |
| Scenarios.IntendedReloginAfterLogout | Data.cs:246-256 | Corrected: after a login and a logout, logging in again yields the same session key, freshly created. |
| Scenarios.CreatedUserCanLogIn | Data.cs:264-288 | Creating a user with valid arguments and a free name on a live site succeeds, and the new user can log in. The session is keyed by the user's id and valid until now plus the expiration. |
| Scenarios.ExpiryBoundary | Data.cs:325 | A session whose validity ends exactly now is not refused as expired by auction creation. An admitted bid with it (not the seller, same site, auction open, offer non-negative) passes the expiry test and is answered. Yet the reaper removes that session at the same time. |
| Scenarios.ReapedSiteKeepsOnlyUsableSessions | Data.cs:320-329 | Every session of the site that the reaper keeps is usable at that time. |
| Scenarios.DeletedAuctionIsGone | Data.cs:670-684 | After deletion, CurrentPrice, CurrentWinner, Bid and Delete all fail with InvalidOperation. |
| Scenarios.DeletedSiteLeavesNothing | Data.cs:289-302 | In a consistent store, after a site is deleted no user, session or auction of that site remains, and the handle is no longer live. |
| Scenarios.DeletedUserNoLongerWins | Data.cs:428-434 | An auction led by a deleted user survives with no leader, and CurrentWinner reports none. |
| Scenarios.WonAuctionsAgreeWithCurrentWinner | Data.cs:386-404 | An auction is among a user's won auctions exactly when it has ended and CurrentWinner reports a leader of that name. |
| Scenarios.ListedAuctionsAreOpen | Data.cs:193-233 | Every auction listed as not ended still takes bids at that time. |
| Sites.UsersOf | Data.cs:157-172 | Fails with InvalidOperation exactly on a deleted site. Otherwise lists one handle per user name of the site, each with key 0. |
| Sites.SessionsOf | Data.cs:174-190 | Fails with InvalidOperation exactly on a deleted site. Otherwise lists exactly the site's sessions whose user row exists (the Include is an inner join over the required relationship of Data.cs:78), each with its own key and its user's name. |
| Scenarios.ListedSessionsAreLive | Data.cs:174-190 | In a consistent store every session of a live site is listed, under its key and its user's name. |
| Scenarios.ListedUserDeletesDespiteOpenSale | Data.cs:405-441 | A user handle from ToyGetUsers has key 0, so the seller guard finds nothing. Deleting through it succeeds although the user sells an open auction, and that auction goes too. |
| Scenarios.ListedUserLeadingFails | Data.cs:425-440 | Through such a handle the leads are not cleared either, so deleting a user that leads an auction fails with the foreign-key error 547. |
| Scenarios.AstralUsernameIsTooLong | Data.cs:152-153 | A user name of 33 characters beyond U+FFFF is 66 code units long and is refused with Argument. |
| Scenarios.AstralSiteNameIsTooLong | Logic.cs:80-81 | A site name of 65 characters beyond U+FFFF is 130 code units long and is refused with Argument. |
| Scenarios.CreatedSiteLoads | Logic.cs:136-156 | A site just created loads back with its own parameters, the new key and an alarm every 300000 ms. |
| Scenarios.CreatedSiteIsListed | Logic.cs:84-102 | Creating a site adds exactly its (name, timezone) pair to the directory. |
| Scenarios.ZeroIncrementIsAccepted | Logic.cs:106-116 | A well-named, free site with timezone in range, positive expiration and a minimum bid increment of 0 is created with that increment. |
| Scenarios.SiteNamesStayUnique | Logic.cs:118-122 | Creating a second site under a name just used fails with NameAlreadyInUse. |

## Left out

- Entity Framework plumbing is not modelled: contexts, tracking, lazy loading and the entity constructors. The store's effects are modelled as map updates.
- The password hash (PBKDF2 with a fixed salt) is left out. It is the parameter `hash`, assumed deterministic and nothing else.
- The alarm clock is left out: the current time is the parameter `now`. Subscribing the reaper is modelled only as the `Alarm` value that LoadSite returns.
- Floating-point prices are modelled as exact reals, so double rounding is not modelled.
- Concurrency between a read context and a write context inside one operation is not modelled. Each operation sees one store value.
- Server and connection failures are left out of every operation except CreateSite and CreateUser, where the SaveChanges fault is a parameter `fault`. CreateHost and LoadHost do not model a store that cannot be reached (Logic.cs:35, 54-57).
- Only the filter of Site.ToyGetAuctions is modelled, not the materialised objects. Site.ToyGetUsers and Site.ToyGetSessions are modelled as the sets of handles they yield (Sites.UsersOf, Sites.SessionsOf).
- Users.Delete: a handle from ToyGetUsers carries key 0 (Data.cs:168), and Users.Delete is modelled on the handle's key as the source is. Its seller guard (Data.cs:411, 418) and its clearing of leads (Data.cs:428) match on that key, so through such a handle a user selling an open auction is deleted with that auction (Data.cs:79-80), and a user leading an auction fails with the foreign-key error 547 (Scenarios.ListedUserDeletesDespiteOpenSale, Scenarios.ListedUserLeadingFails).
- Store.FindUser, Store.FindByCredentials and Store.FindSite pick any one match. `SingleOrDefault` would throw on several matches, which a consistent store never holds: site and user names are unique there (Integrity.ReachableStoresAreValid).
- Equals and GetHashCode are not modelled, nor the validation attributes of the entity classes.
- A site record missing under a live auction or session (a null `Site!`) is modelled as UnavailableDb. The source would raise a null-reference exception there.
- Auctions.CurrentWinner: a leader key with no user row is modelled as UnavailableDb, where Data.cs:652 would raise a null-reference exception. The foreign key of Data.cs:81-82 rules that state out, and a consistent store never holds it (Store.AuctionFits).
- Store.FindUser, Store.FindByCredentials, Store.FindSite, Store.UserLive, Store.SiteLive, Sites.CreateUser, Users.WonAuctions, Users.Delete, Hosting.CreateSite, Hosting.LoadSite: names compare exactly, character by character. The SQL queries (Data.cs:241-243, 271, 314, 395, 429, 447; Logic.cs:120, 143) compare under the database collation. The default SQL Server collation ignores case and trailing spaces, so there "Foo", "foo" and "foo " name the same user or site; the model treats them as distinct.

- Bidding.Step: the leader check of Data.cs:776 compares users with `User.Equals`, which compares names; Step compares keys. User names are unique in a consistent store, so the two agree there.
- Sites.Login: the session key is the user's id, as Data.cs:515 and 520 make it. The string key format is not modelled.
- Users.Delete: the two seller loops of Data.cs:411-423 test the same thing and are modelled as one check.
- Auctions.Bid: the re-read of the session at Data.cs:749-750 can only fail if another client removes the session mid-operation, so it is not modelled.

## Findings

| source | as written | input that shows it | evidently intended | confidence | as-written member | corrected member |
|---|---|---|---|---|---|---|
| Data.cs:246-256 | Login opens a new session only when the user's SessionId column is empty. That column is set on the first login and never cleared by Logout or the reaper, so once Logout or the reaper has removed the session row, a later login looks for a row that no longer exists. | A user logs in, logs out, then logs in again with the same credentials: the second login fails with UnavailableDb. | A user without a live session row gets a new session whenever the credentials match. | medium, not executed | Scenarios.ReloginAfterLogoutFails | Scenarios.IntendedReloginAfterLogout |

=== FILE: auction.dfy ===
/**
 The operations of an Auction handle (Data.cs:606-860): reading the leader and the
 price, deleting the auction, and bidding. Each starts with the auction's live check,
 by key and site.
 */
module Auctions {
  import opened Wrappers
  import opened Bidding
  import opened Store

  /** Auction.CurrentWinner (Data.cs:642-655): the leader, if any, as a user handle of the auction's site. */
  ghost function CurrentWinner(db: Db, a: AuctionHandle): (r: Result<Option<UserHandle>, Error>)
    ensures !AuctionLive(db, a) ==> r == Err(InvalidOperation)
    ensures r.Ok? ==> AuctionLive(db, a)
    ensures AuctionLive(db, a) && db.auctions[a.id].standing.winner.None? ==> r == Ok(None)
    ensures AuctionLive(db, a) && db.auctions[a.id].standing.winner.Some? ==>
              (r.Ok? <==> db.auctions[a.id].standing.winner.value in db.users)
    ensures r.Ok? ==> (r.value.None? <==> db.auctions[a.id].standing.winner.None?)
    ensures r.Ok? && r.value.Some? ==>
              && Some(r.value.value.id) == db.auctions[a.id].standing.winner
              && r.value.value.id in db.users
              && r.value.value.username == db.users[r.value.value.id].username
              && r.value.value.siteId == a.siteId
  {
    if !AuctionLive(db, a) then Err(InvalidOperation)
    else match db.auctions[a.id].standing.winner
      case None => Ok(None)
      case Some(w) =>
        if w !in db.users then Err(UnavailableDb)  // the leader's row is missing
        else Ok(Some(UserHandle(w, a.siteId, db.users[w].username)))
  }

  /** Auction.CurrentPrice (Data.cs:657-668). */
  ghost function CurrentPrice(db: Db, a: AuctionHandle): (r: Result<real, Error>)
    ensures r.Ok? <==> AuctionLive(db, a)
    ensures r.Err? ==> r.error == InvalidOperation
    ensures r.Ok? ==> r.value == db.auctions[a.id].standing.priceNow
  {
    if !AuctionLive(db, a) then Err(InvalidOperation) else Ok(db.auctions[a.id].standing.priceNow)
  }

  /** Auction.Delete (Data.cs:670-684): the auction row goes, nothing else. */
  ghost function Delete(db: Db, a: AuctionHandle): (r: Result<Db, Error>)
    ensures r.Ok? <==> AuctionLive(db, a)
    ensures r.Err? ==> r.error == InvalidOperation
    ensures r.Ok? ==>
              && r.value.auctions.Keys == db.auctions.Keys - {a.id}
              && (forall k :: k in r.value.auctions ==> r.value.auctions[k] == db.auctions[k])
              && r.value == db.(auctions := r.value.auctions)
  {
    if !AuctionLive(db, a) then Err(InvalidOperation)
    else Ok(db.(auctions := db.auctions - {a.id}))
  }

  /** The auction exists and, by the test of Data.cs:689, has not ended at time now. */
  predicate Open(db: Db, a: AuctionHandle, now: int)
  {
    AuctionLive(db, a) && now <= db.auctions[a.id].endsOn
  }

  /** The user a session bids for: looked up by the session's site and user name (Data.cs:705-710). */
  ghost function Bidder(db: Db, s: SessionHandle): Option<UserId>
  {
    FindUser(db.users, s.siteId, s.username)
  }

  /** User.Equals compares names: whether the bidder is the auction's seller. */
  predicate IsSeller(db: Db, bidder: UserId, auction: Auction)
    requires bidder in db.users
  {
    auction.seller in db.users && db.users[auction.seller].username == db.users[bidder].username
  }

  /**
   Whether the bid passes the checks of Data.cs:711: the session has not expired, the
   bidder is not the seller, and the bidder belongs to the auction's site.
   */
  predicate BidderAdmitted(db: Db, a: AuctionHandle, s: SessionHandle, bidder: UserId, now: int)
    requires AuctionLive(db, a) && s.id in db.sessions && bidder in db.users
  {
    && now <= db.sessions[s.id].validUntil
    && !IsSeller(db, bidder, db.auctions[a.id])
    && db.users[bidder].siteId == a.siteId
  }

  /**
   Auction.Bid (Data.cs:686-833). Malformed requests are errors, checked in source
   order; an offer the rules turn down is a plain false that changes nothing. An
   accepted offer moves the auction's standing as the decision procedure says and
   slides the bidder's session to now plus the site's expiration.
   */
  ghost function Bid(db: Db, a: AuctionHandle, session: Option<SessionHandle>, offer: real, now: int)
    : (r: Result<(bool, Db), Error>)
    ensures !Open(db, a, now) ==> r == Err(InvalidOperation)
    ensures Open(db, a, now) && offer < 0.0 ==> r == Err(ArgumentOutOfRange)
    ensures Open(db, a, now) && 0.0 <= offer && session.None? ==> r == Err(ArgumentNull)
    ensures Open(db, a, now) && 0.0 <= offer && session.Some? && session.value.id !in db.sessions ==>
              r == Err(Argument)
    ensures Open(db, a, now) && 0.0 <= offer && session.Some? && session.value.id in db.sessions &&
            Bidder(db, session.value).None? ==>
              r == Err(InvalidOperation)
    ensures Open(db, a, now) && 0.0 <= offer && session.Some? && session.value.id in db.sessions &&
            Bidder(db, session.value).Some? && !BidderAdmitted(db, a, session.value, Bidder(db, session.value).value, now) ==>
              r == Err(Argument)
    ensures r.Ok? ==>
              && Open(db, a, now) && 0.0 <= offer && session.Some? && session.value.id in db.sessions
              && Bidder(db, session.value).Some?
              && BidderAdmitted(db, a, session.value, Bidder(db, session.value).value, now)
    ensures Open(db, a, now) && 0.0 <= offer && session.Some? && session.value.id in db.sessions &&
            Bidder(db, session.value).Some? && BidderAdmitted(db, a, session.value, Bidder(db, session.value).value, now) &&
            a.siteId in db.sites ==>
              r.Ok?
    ensures r.Ok? && !r.value.0 ==> r.value.1 == db
    ensures r.Ok? && r.value.0 ==>
              var (db', s, bidder) := (r.value.1, session.value, Bidder(db, session.value).value);
              && a.siteId in db.sites
              && db'.auctions.Keys == db.auctions.Keys
              && Step(db.auctions[a.id].standing, bidder, offer, db.sites[a.siteId].minimumBidIncrement)
                   == (true, db'.auctions[a.id].standing)
              && db'.auctions[a.id] == db.auctions[a.id].(standing := db'.auctions[a.id].standing)
              && (forall k :: k in db.auctions && k != a.id ==> db'.auctions[k] == db.auctions[k])
              && db'.sessions.Keys == db.sessions.Keys
              && db'.sessions[s.id] == db.sessions[s.id].(validUntil := now + db.sites[a.siteId].sessionExpiration)
              && (forall k :: k in db.sessions && k != s.id ==> db'.sessions[k] == db.sessions[k])
              && db'.users == db.users && db'.sites == db.sites
              && db'.nextSiteId == db.nextSiteId && db'.nextUserId == db.nextUserId && db'.nextAuctionId == db.nextAuctionId
    ensures r.Ok? && a.siteId in db.sites ==>
              r.value.0 == Step(db.auctions[a.id].standing, Bidder(db, session.value).value, offer,
                                db.sites[a.siteId].minimumBidIncrement).0
  {
    if !Open(db, a, now) then Err(InvalidOperation)
    else if offer < 0.0 then Err(ArgumentOutOfRange)
    else if session.None? then Err(ArgumentNull)
    else if session.value.id !in db.sessions then Err(Argument)
    else match Bidder(db, session.value)
      case None => Err(InvalidOperation)
      case Some(bidder) =>
        var s := session.value;
        var auction := db.auctions[a.id];
        if !BidderAdmitted(db, a, s, bidder, now) then Err(Argument)
        else if offer < auction.standing.priceNow then Ok((false, db))
        else if a.siteId !in db.sites then Err(UnavailableDb)  // Site! on a missing site
        else
          var site := db.sites[a.siteId];
          var (accepted, standing) := Step(auction.standing, bidder, offer, site.minimumBidIncrement);
          if !accepted then Ok((false, db))
          else
            Ok((true, db.(sessions := db.sessions[s.id := db.sessions[s.id].(validUntil := now + site.sessionExpiration)],
                          auctions := db.auctions[a.id := auction.(standing := standing)])))
  }
}

=== FILE: bidding.dfy ===
/**
 The decision procedure of Auction.Bid (Data.cs:724-831), separated from the store:
 given the auction's standing (current price, highest proxy bid and its bidder), the
 bidder, the offer and the site's minimum bid increment, it decides whether the bid
 is accepted and what the standing becomes.

 The rules are kept exactly as written, including two quirks:
 - the take-over branch demands a non-zero maximum (Data.cs:789), so a leader whose
   maximum is 0 is never displaced;
 - the rejections of Data.cs:734 and Data.cs:739 are kept although the ones of
   Data.cs:724 and Data.cs:726 already cover them.
 */
module Bidding {
  import opened Wrappers

  type UserId = int

  /** The bidding part of an auction record: PriceNow, MaximumAmount and IdWinUserHaveBid. */
  datatype Standing = Standing(priceNow: real, maximumAmount: real, winner: Option<UserId>)

  /** One bid: who offers and how much. */
  datatype Offer = Offer(bidder: UserId, amount: real)

  /** The standing of a fresh auction (Data.cs:548-549 and the initialiser at Data.cs:625). */
  function Opening(startingPrice: real): Standing
  {
    Standing(startingPrice, 0.0, None)
  }

  /** The auction invariant: whoever leads has offered at least the current price. */
  predicate Consistent(s: Standing)
  {
    s.winner.Some? ==> s.priceNow <= s.maximumAmount
  }

  function Min(a: real, b: real): real
  {
    if a < b then a else b
  }

  /** The five early returns of Data.cs:724-741, in source order. */
  predicate Rejected(s: Standing, bidder: UserId, offer: real, increment: real)
  {
    || offer < s.priceNow
    || (offer < s.priceNow + increment && s.winner.Some?)
    || (s.winner == Some(bidder) && offer < s.maximumAmount + increment)
    || (s.winner != Some(bidder) && offer < s.priceNow && s.winner.Some?)
    || (s.winner != Some(bidder) && offer < s.priceNow + increment && s.winner.Some?)
  }

  /**
   One bid against the standing: whether it is accepted and the standing after it.
   A rejected bid changes nothing; an accepted one may only hand the lead to the
   bidder, and then records the offer as the new maximum; with a non-negative
   increment the auction invariant is kept and the price never goes down.
   */
  function Step(s: Standing, bidder: UserId, offer: real, increment: real): (r: (bool, Standing))
    ensures r.0 <==>
              && s.priceNow <= offer
              && (s.winner.Some? ==> s.priceNow + increment <= offer)
              && (s.winner == Some(bidder) ==> s.maximumAmount + increment <= offer)
    ensures !r.0 ==> r.1 == s
    ensures r.1.winner == s.winner || r.1.winner == Some(bidder)
    ensures r.1.winner != s.winner ==> r.1.maximumAmount == offer
    ensures r.1.winner.Some? ==> s.winner.Some? || r.1.maximumAmount == offer
    ensures 0.0 <= increment && Consistent(s) ==> Consistent(r.1) && s.priceNow <= r.1.priceNow
  {
    if Rejected(s, bidder, offer, increment) then
      (false, s)
    else if s.winner.None? && offer >= s.priceNow then
      // first bid: the bidder leads with the offer as maximum, the price stays
      (true, s.(maximumAmount := offer, winner := Some(bidder)))
    else if s.winner == Some(bidder) then
      // the leader raises its own maximum
      (true, s.(maximumAmount := offer))
    else if s.maximumAmount != 0.0 && s.winner != Some(bidder) && offer > s.maximumAmount then
      // a competitor beats the maximum and takes the lead
      (true, Standing(Min(offer, s.maximumAmount + increment), offer, Some(bidder)))
    else
      // the leader's proxy bid defends: the price climbs towards the maximum
      (true, s.(priceNow := Min(s.maximumAmount, offer + increment)))
  }

  /** The standing after a sequence of bids on one auction, in order. */
  function Replay(s: Standing, offers: seq<Offer>, increment: real): (r: Standing)
    ensures 0.0 <= increment && Consistent(s) ==> Consistent(r) && s.priceNow <= r.priceNow
    decreases |offers|
  {
    if |offers| == 0 then s
    else Replay(Step(s, offers[0].bidder, offers[0].amount, increment).1, offers[1..], increment)
  }

  /** The rejections of Data.cs:734 and Data.cs:739 never fire on their own. */
  lemma LaterRejectionsAreRedundant(s: Standing, bidder: UserId, offer: real, increment: real)
    ensures Rejected(s, bidder, offer, increment) <==>
              || offer < s.priceNow
              || (offer < s.priceNow + increment && s.winner.Some?)
              || (s.winner == Some(bidder) && offer < s.maximumAmount + increment)
  {
  }

  /** A bid on an auction nobody leads is accepted as soon as it reaches the price. */
  lemma FirstBidTakesLead(s: Standing, bidder: UserId, offer: real, increment: real)
    requires s.winner.None? && s.priceNow <= offer
    ensures Step(s, bidder, offer, increment) == (true, Standing(s.priceNow, offer, Some(bidder)))
  {
  }

  /** The leader may only raise its own maximum, by at least the increment, and nothing else moves. */
  lemma LeaderRaisesMaximum(s: Standing, bidder: UserId, offer: real, increment: real)
    requires s.winner == Some(bidder)
    ensures Step(s, bidder, offer, increment).0 <==>
              && s.priceNow <= offer
              && s.priceNow + increment <= offer
              && s.maximumAmount + increment <= offer
    ensures Step(s, bidder, offer, increment).0 ==>
              Step(s, bidder, offer, increment).1 == s.(maximumAmount := offer)
  {
  }

  /** A competitor above a non-zero maximum takes the lead at the old maximum plus the increment, or its own offer if lower. */
  lemma CompetitorTakesLead(s: Standing, bidder: UserId, offer: real, increment: real)
    requires s.winner.Some? && s.winner != Some(bidder)
    requires s.maximumAmount != 0.0 && s.maximumAmount < offer
    requires s.priceNow + increment <= offer && s.priceNow <= offer
    ensures Step(s, bidder, offer, increment) ==
              (true, Standing(Min(offer, s.maximumAmount + increment), offer, Some(bidder)))
  {
  }

  /** Any other accepted competing bid leaves the leader and maximum alone and lifts the price to the offer plus the increment, capped at the maximum. */
  lemma LeaderDefends(s: Standing, bidder: UserId, offer: real, increment: real)
    requires s.winner.Some? && s.winner != Some(bidder)
    requires s.maximumAmount == 0.0 || offer <= s.maximumAmount
    requires s.priceNow + increment <= offer && s.priceNow <= offer
    ensures Step(s, bidder, offer, increment) ==
              (true, s.(priceNow := Min(s.maximumAmount, offer + increment)))
  {
  }

  /** The quirk of Data.cs:789: a leader whose maximum is 0 keeps the lead against every offer. */
  lemma ZeroMaximumLeaderIsNeverDisplaced(s: Standing, bidder: UserId, offer: real, increment: real)
    requires s.winner.Some? && s.maximumAmount == 0.0
    ensures Step(s, bidder, offer, increment).1.winner == s.winner
  {
  }
}

=== FILE: host.dfy ===
/**
 The host façade of Logic.cs: creating and loading a host, and the site directory
 (checking site names, creating and loading sites, listing them).
 */
module Hosting {
  import opened Wrappers
  import opened Store

  /** The period, in milliseconds, of the alarm that drives a loaded site's reaper (Logic.cs:146). */
  const ReapingPeriodMs: int := 300000

  /** An alarm clock factory, known only by a name. */
  datatype ClockFactory = ClockFactory(name: string)

  /** A host: the connection string of its store and the factory of its sites' clocks. */
  datatype Host = Host(connectionString: string, clockFactory: ClockFactory)

  /**
   The alarm a loaded site subscribes to: rung every periodMs milliseconds by a clock of
   the site's timezone, it calls Site.OnRingingEvent of the site with key siteId.
   */
  datatype Alarm = Alarm(timezone: int, periodMs: int, siteId: SiteId)

  /** HostFactory.CreateHost (Logic.cs:20-36): a null connection string is refused; otherwise the store starts afresh, empty. */
  function CreateHost(connectionString: Option<string>): (r: Result<Db, Error>)
    ensures r.Err? <==> connectionString.None?
    ensures r.Err? ==> r.error == ArgumentNull
    ensures r.Ok? ==> Valid(r.value)
    ensures r.Ok? ==> r.value.sites == map[] && r.value.users == map[] && r.value.sessions == map[] && r.value.auctions == map[]
  {
    if connectionString.None? then Err(ArgumentNull) else Ok(Empty())
  }

  /** HostFactory.LoadHost (Logic.cs:39-60): a null connection string or clock factory is refused. */
  function LoadHost(connectionString: Option<string>, clockFactory: Option<ClockFactory>): (r: Result<Host, Error>)
    ensures r.Err? <==> connectionString.None? || clockFactory.None?
    ensures r.Err? ==> r.error == ArgumentNull
    ensures r.Ok? ==> r.value.connectionString == connectionString.value && r.value.clockFactory == clockFactory.value
  {
    if connectionString.None? || clockFactory.None? then Err(ArgumentNull)
    else Ok(Host(connectionString.value, clockFactory.value))
  }

  /** Host.CheckSiteName (Logic.cs:77-82). */
  function CheckSiteName(name: Option<string>): (r: Outcome<Error>)
    ensures r.Pass? <==> name.Some? && MinSiteName <= Utf16Length(name.value) <= MaxSiteName
    ensures name.None? ==> r == Fail(ArgumentNull)
    ensures name.Some? && r.Fail? ==> r == Fail(Argument)
  {
    if name.None? then Fail(ArgumentNull)
    else if Utf16Length(name.value) < MinSiteName || Utf16Length(name.value) > MaxSiteName then Fail(Argument)
    else Pass
  }

  /** Whether the site parameters are in range (the single test of Logic.cs:106; the tests of 107-115 repeat it). */
  predicate ParametersInRange(timezone: int, sessionExpiration: int, minimumBidIncrement: real)
  {
    MinTimeZone <= timezone <= MaxTimeZone && 0.0 <= minimumBidIncrement && 0 < sessionExpiration
  }

  /**
   Host.CreateSite (Logic.cs:103-134). The name is checked, then the parameters, before
   the store is read; a name already taken is refused; otherwise exactly one site is
   added. A store fault on saving is translated by SaveChanges.
   */
  ghost function CreateSite(db: Db, name: Option<string>, timezone: int, sessionExpiration: int, minimumBidIncrement: real, fault: Option<DbFault>)
    : (r: Result<Db, Error>)
    ensures CheckSiteName(name).Fail? ==> r == Err(CheckSiteName(name).error)
    ensures CheckSiteName(name).Pass? && !ParametersInRange(timezone, sessionExpiration, minimumBidIncrement) ==>
              r == Err(ArgumentOutOfRange)
    ensures CheckSiteName(name).Pass? && ParametersInRange(timezone, sessionExpiration, minimumBidIncrement) &&
            (exists k :: k in db.sites && db.sites[k].name == name.value) ==>
              r == Err(NameAlreadyInUse)
    ensures CheckSiteName(name).Pass? && ParametersInRange(timezone, sessionExpiration, minimumBidIncrement) &&
            (forall k :: k in db.sites ==> db.sites[k].name != name.value) && fault.Some? ==>
              r == Err(SaveChangesError(fault.value))
    ensures CheckSiteName(name).Pass? && ParametersInRange(timezone, sessionExpiration, minimumBidIncrement) &&
            (forall k :: k in db.sites ==> db.sites[k].name != name.value) && fault.None? ==>
              r.Ok?
    ensures r.Ok? ==>
              && name.Some?
              && WellFormedSite(Site(name.value, timezone, sessionExpiration, minimumBidIncrement))
              && (forall k :: k in db.sites ==> db.sites[k].name != name.value)
              && r.value.sites.Keys == db.sites.Keys + {db.nextSiteId}
              && r.value.sites[db.nextSiteId] == Site(name.value, timezone, sessionExpiration, minimumBidIncrement)
              && (forall k :: k in db.sites && k != db.nextSiteId ==> r.value.sites[k] == db.sites[k])
              && r.value.nextSiteId > db.nextSiteId
              && r.value.users == db.users && r.value.sessions == db.sessions && r.value.auctions == db.auctions
  {
    match CheckSiteName(name)
    case Fail(e) => Err(e)
    case Pass =>
      if !ParametersInRange(timezone, sessionExpiration, minimumBidIncrement) then Err(ArgumentOutOfRange)
      else if exists k :: k in db.sites && db.sites[k].name == name.value then Err(NameAlreadyInUse)
      else if fault.Some? then Err(SaveChangesError(fault.value))
      else
        var id := db.nextSiteId;
        Ok(db.(sites := db.sites[id := Site(name.value, timezone, sessionExpiration, minimumBidIncrement)],
               nextSiteId := id + 1))
  }

  /**
   Host.LoadSite (Logic.cs:136-156): the name is checked before the store is read; an
   unknown name is refused; otherwise the handle carries the stored key and record, and
   the site's reaper is subscribed to an alarm of the site's timezone.
   */
  ghost function LoadSite(db: Db, name: Option<string>): (r: Result<(SiteHandle, Alarm), Error>)
    ensures CheckSiteName(name).Fail? ==> r == Err(CheckSiteName(name).error)
    ensures CheckSiteName(name).Pass? && (forall k :: k in db.sites ==> db.sites[k].name != name.value) ==>
              r == Err(InexistentName)
    ensures CheckSiteName(name).Pass? && (exists k :: k in db.sites && db.sites[k].name == name.value) ==>
              r.Ok?
    ensures r.Ok? ==>
              var (h, alarm) := r.value;
              && name.Some?
              && h.id in db.sites
              && h.site == db.sites[h.id]
              && h.site.name == name.value
              && alarm == Alarm(h.site.timezone, ReapingPeriodMs, h.id)
  {
    match CheckSiteName(name)
    case Fail(e) => Err(e)
    case Pass =>
      match FindSite(db.sites, name.value)
      case None => Err(InexistentName)
      case Some(k) => Ok((SiteHandle(k, db.sites[k]), Alarm(db.sites[k].timezone, ReapingPeriodMs, k)))
  }

  /** Host.GetSiteInfos (Logic.cs:84-102): the name and timezone of every stored site. */
  function GetSiteInfos(db: Db): (r: set<(string, int)>)
    ensures forall name, timezone :: (name, timezone) in r <==>
              exists k :: k in db.sites && db.sites[k].name == name && db.sites[k].timezone == timezone
  {
    set k | k in db.sites :: (db.sites[k].name, db.sites[k].timezone)
  }
}

=== FILE: integrity.dfy ===
/**
 Every operation that changes the store keeps it consistent: keys below their identity
 counters, site and user names unique, every foreign key resolved, domain rules held
 and every auction's standing consistent.
 */
module Integrity {
  import opened Wrappers
  import opened Store
  import Sites
  import Users
  import Sessions
  import Auctions
  import Hosting
  import Bidding

  lemma CreateSiteKeepsValid(db: Db, name: Option<string>, timezone: int, sessionExpiration: int, minimumBidIncrement: real, fault: Option<DbFault>)
    requires Valid(db)
    requires Hosting.CreateSite(db, name, timezone, sessionExpiration, minimumBidIncrement, fault).Ok?
    ensures Valid(Hosting.CreateSite(db, name, timezone, sessionExpiration, minimumBidIncrement, fault).value)
  {
  }

  lemma CreateUserKeepsValid(db: Db, h: SiteHandle, username: Option<string>, password: Option<string>, hash: Hasher, fault: Option<DbFault>)
    requires Valid(db)
    requires Sites.CreateUser(db, h, username, password, hash, fault).Ok?
    ensures Valid(Sites.CreateUser(db, h, username, password, hash, fault).value)
  {
    var db' := Sites.CreateUser(db, h, username, password, hash, fault).value;
    assert WellFormedUsername(db'.users[db.nextUserId].username);
    assert UsersValid(db');
    assert forall k :: k in db.auctions ==> AuctionFits(db', db.auctions[k]);
  }

  lemma LoginKeepsValid(db: Db, h: SiteHandle, username: Option<string>, password: Option<string>, now: int, hash: Hasher)
    requires Valid(db)
    requires Sites.Login(db, h, username, password, now, hash).Ok?
    ensures Valid(Sites.Login(db, h, username, password, now, hash).value.1)
  {
    match FindByCredentials(db.users, h.id, username.value, hash(password.value))
    case None =>
    case Some(uid) =>
      if db.users[uid].sessionId.None? {
        OpenSessionKeepsValid(db, h, uid, now);
      } else if uid in db.sessions {
        RefreshSessionKeepsValid(db, h, uid, now);
      }
  }

  lemma LoginIntendedKeepsValid(db: Db, h: SiteHandle, username: Option<string>, password: Option<string>, now: int, hash: Hasher)
    requires Valid(db)
    requires Sites.LoginIntended(db, h, username, password, now, hash).Ok?
    ensures Valid(Sites.LoginIntended(db, h, username, password, now, hash).value.1)
  {
    match FindByCredentials(db.users, h.id, username.value, hash(password.value))
    case None =>
    case Some(uid) =>
      if uid !in db.sessions {
        OpenSessionKeepsValid(db, h, uid, now);
      } else {
        RefreshSessionKeepsValid(db, h, uid, now);
      }
  }

  /** Opening a session for a user of site h that has none keeps the store consistent. */
  lemma OpenSessionKeepsValid(db: Db, h: SiteHandle, uid: Bidding.UserId, now: int)
    requires Valid(db)
    requires uid in db.users && uid !in db.sessions && db.users[uid].siteId == h.id
    ensures Sites.OpenSession(db, h, uid, now).Ok?
    ensures Valid(Sites.OpenSession(db, h, uid, now).value.1)
  {
    var db' := Sites.OpenSession(db, h, uid, now).value.1;
    assert forall k :: k in db'.users ==> db'.users[k].siteId == db.users[k].siteId && db'.users[k].username == db.users[k].username;
    assert UsersValid(db');
    assert forall k :: k in db.auctions ==> AuctionFits(db', db.auctions[k]);
  }

  /** Sliding the existing session of a user keeps the store consistent. */
  lemma RefreshSessionKeepsValid(db: Db, h: SiteHandle, uid: Bidding.UserId, now: int)
    requires Valid(db)
    requires uid in db.users && uid in db.sessions
    ensures Valid(Sites.RefreshSession(db, h, uid, now).value.1)
  {
  }

  lemma DeleteSiteKeepsValid(db: Db, h: SiteHandle)
    requires Valid(db)
    requires Sites.Delete(db, h).Ok?
    ensures Valid(Sites.Delete(db, h).value)
  {
  }

  lemma ReapingKeepsValid(db: Db, h: SiteHandle, now: int)
    requires Valid(db)
    ensures Valid(Sites.OnRingingEvent(db, h, now))
  {
  }

  lemma DeleteUserKeepsValid(db: Db, h: UserHandle, now: int)
    requires Valid(db)
    requires Users.Delete(db, h, now).Ok?
    ensures Valid(Users.Delete(db, h, now).value)
  {
  }

  lemma CreateAuctionKeepsValid(db: Db, h: SessionHandle, description: Option<string>, endsOn: int, startingPrice: real, now: int)
    requires Valid(db)
    requires Sessions.CreateAuction(db, h, description, endsOn, startingPrice, now).Ok?
    ensures Valid(Sessions.CreateAuction(db, h, description, endsOn, startingPrice, now).value.1)
  {
  }

  lemma LogoutKeepsValid(db: Db, h: SessionHandle)
    requires Valid(db)
    requires Sessions.Logout(db, h).Ok?
    ensures Valid(Sessions.Logout(db, h).value)
  {
  }

  lemma DeleteAuctionKeepsValid(db: Db, a: AuctionHandle)
    requires Valid(db)
    requires Auctions.Delete(db, a).Ok?
    ensures Valid(Auctions.Delete(db, a).value)
  {
  }

  lemma BidKeepsValid(db: Db, a: AuctionHandle, session: Option<SessionHandle>, offer: real, now: int)
    requires Valid(db)
    requires Auctions.Bid(db, a, session, offer, now).Ok?
    ensures Valid(Auctions.Bid(db, a, session, offer, now).value.1)
  {
  }

  // ---------------------------------------------------------------------------
  // Traces: any sequence of operations, each at its own time.

  /** One call on the façade, with its arguments; store faults are those of the operations that take them. */
  datatype Command =
    | CreateSite(name: Option<string>, timezone: int, sessionExpiration: int, minimumBidIncrement: real, siteFault: Option<DbFault>)
    | CreateUser(site: SiteHandle, username: Option<string>, password: Option<string>, userFault: Option<DbFault>)
    | Login(site: SiteHandle, username: Option<string>, password: Option<string>)
    | LoginCorrected(site: SiteHandle, username: Option<string>, password: Option<string>)
    | DeleteSite(site: SiteHandle)
    | Reap(site: SiteHandle)
    | DeleteUser(user: UserHandle)
    | CreateAuction(session: SessionHandle, description: Option<string>, endsOn: int, startingPrice: real)
    | Logout(session: SessionHandle)
    | DeleteAuction(auction: AuctionHandle)
    | Bid(auction: AuctionHandle, bidder: Option<SessionHandle>, offer: real)

  /** A command issued at time `at`. */
  datatype Event = Event(at: int, command: Command)

  /**
   The store after one event: what the operation leaves, or the store unchanged when it
   fails. Login is the program's; LoginCorrected is the login as evidently intended.
   */
  ghost function Apply(db: Db, e: Event, hash: Hasher): Db
  {
    var now := e.at;
    match e.command
    case CreateSite(name, timezone, expiration, increment, fault) =>
      var r := Hosting.CreateSite(db, name, timezone, expiration, increment, fault); if r.Ok? then r.value else db
    case CreateUser(site, username, password, fault) =>
      var r := Sites.CreateUser(db, site, username, password, hash, fault); if r.Ok? then r.value else db
    case Login(site, username, password) =>
      var r := Sites.Login(db, site, username, password, now, hash); if r.Ok? then r.value.1 else db
    case LoginCorrected(site, username, password) =>
      var r := Sites.LoginIntended(db, site, username, password, now, hash); if r.Ok? then r.value.1 else db
    case DeleteSite(site) =>
      var r := Sites.Delete(db, site); if r.Ok? then r.value else db
    case Reap(site) =>
      Sites.OnRingingEvent(db, site, now)
    case DeleteUser(user) =>
      var r := Users.Delete(db, user, now); if r.Ok? then r.value else db
    case CreateAuction(session, description, endsOn, startingPrice) =>
      var r := Sessions.CreateAuction(db, session, description, endsOn, startingPrice, now); if r.Ok? then r.value.1 else db
    case Logout(session) =>
      var r := Sessions.Logout(db, session); if r.Ok? then r.value else db
    case DeleteAuction(auction) =>
      var r := Auctions.Delete(db, auction); if r.Ok? then r.value else db
    case Bid(auction, session, offer) =>
      var r := Auctions.Bid(db, auction, session, offer, now); if r.Ok? then r.value.1 else db
  }

  /** The store after a whole trace of events, in order. */
  ghost function Run(db: Db, trace: seq<Event>, hash: Hasher): Db
    decreases |trace|
  {
    if |trace| == 0 then db else Run(Apply(db, trace[0], hash), trace[1..], hash)
  }

  /** Every single event keeps the store consistent. */
  lemma ApplyKeepsValid(db: Db, e: Event, hash: Hasher)
    requires Valid(db)
    ensures Valid(Apply(db, e, hash))
  {
    var now := e.at;
    match e.command
    case CreateSite(name, timezone, expiration, increment, fault) =>
      if Hosting.CreateSite(db, name, timezone, expiration, increment, fault).Ok? {
        CreateSiteKeepsValid(db, name, timezone, expiration, increment, fault);
      }
    case CreateUser(site, username, password, fault) =>
      if Sites.CreateUser(db, site, username, password, hash, fault).Ok? {
        CreateUserKeepsValid(db, site, username, password, hash, fault);
      }
    case Login(site, username, password) =>
      if Sites.Login(db, site, username, password, now, hash).Ok? {
        LoginKeepsValid(db, site, username, password, now, hash);
      }
    case LoginCorrected(site, username, password) =>
      if Sites.LoginIntended(db, site, username, password, now, hash).Ok? {
        LoginIntendedKeepsValid(db, site, username, password, now, hash);
      }
    case DeleteSite(site) =>
      if Sites.Delete(db, site).Ok? {
        DeleteSiteKeepsValid(db, site);
      }
    case Reap(site) =>
      ReapingKeepsValid(db, site, now);
    case DeleteUser(user) =>
      if Users.Delete(db, user, now).Ok? {
        DeleteUserKeepsValid(db, user, now);
      }
    case CreateAuction(session, description, endsOn, startingPrice) =>
      if Sessions.CreateAuction(db, session, description, endsOn, startingPrice, now).Ok? {
        CreateAuctionKeepsValid(db, session, description, endsOn, startingPrice, now);
      }
    case Logout(session) =>
      if Sessions.Logout(db, session).Ok? {
        LogoutKeepsValid(db, session);
      }
    case DeleteAuction(auction) =>
      if Auctions.Delete(db, auction).Ok? {
        DeleteAuctionKeepsValid(db, auction);
      }
    case Bid(auction, session, offer) =>
      if Auctions.Bid(db, auction, session, offer, now).Ok? {
        BidKeepsValid(db, auction, session, offer, now);
      }
  }

  /** A trace of events from a consistent store ends in a consistent store. */
  lemma {:induction false} RunKeepsValid(db: Db, trace: seq<Event>, hash: Hasher)
    requires Valid(db)
    ensures Valid(Run(db, trace, hash))
    decreases |trace|
  {
    if |trace| > 0 {
      ApplyKeepsValid(db, trace[0], hash);
      RunKeepsValid(Apply(db, trace[0], hash), trace[1..], hash);
    }
  }

  /** Every store the façade can reach from a freshly created one is consistent. */
  lemma ReachableStoresAreValid(trace: seq<Event>, hash: Hasher)
    ensures Valid(Run(Empty(), trace, hash))
  {
    EmptyIsValid();
    RunKeepsValid(Empty(), trace, hash);
  }
}

=== FILE: scenarios.dfy ===
/**
 Properties that relate several operations: round trips through the façade, the
 session lifecycle, the expiry boundaries, cascades and the read-side views.
 */
module Scenarios {
  import opened Wrappers
  import opened Bidding
  import opened Store
  import Sites
  import Users
  import Sessions
  import Auctions
  import Hosting

  // ---------------------------------------------------------------------------
  // Bidding

  /**
   The proxy-bidding walk-through with increment 1 and starting price 10: A offers 10
   and leads at 10; B offers 15 and leads at 11; A offers 20 and leads at 16.
   */
  lemma {:induction false} ProxyBiddingWalkThrough(alice: UserId, bob: UserId)
    requires alice != bob
    ensures Replay(Opening(10.0), [Offer(alice, 10.0)], 1.0) == Standing(10.0, 10.0, Some(alice))
    ensures Replay(Opening(10.0), [Offer(alice, 10.0), Offer(bob, 15.0)], 1.0) == Standing(11.0, 15.0, Some(bob))
    ensures Replay(Opening(10.0), [Offer(alice, 10.0), Offer(bob, 15.0), Offer(alice, 20.0)], 1.0)
              == Standing(16.0, 20.0, Some(alice))
  {
    var s0 := Opening(10.0);
    var s1 := Step(s0, alice, 10.0, 1.0).1;
    assert s1 == Standing(10.0, 10.0, Some(alice));
    var s2 := Step(s1, bob, 15.0, 1.0).1;
    assert s2 == Standing(11.0, 15.0, Some(bob));
    var s3 := Step(s2, alice, 20.0, 1.0).1;
    assert s3 == Standing(16.0, 20.0, Some(alice));
    var a1, b2, a3 := Offer(alice, 10.0), Offer(bob, 15.0), Offer(alice, 20.0);
    assert Replay(s1, [], 1.0) == s1;
    assert Replay(s2, [], 1.0) == s2;
    assert Replay(s3, [], 1.0) == s3;
    assert Replay(s0, [a1], 1.0) == Replay(s1, [], 1.0) by { assert [a1][1..] == []; }
    assert Replay(s1, [b2], 1.0) == Replay(s2, [], 1.0) by { assert [b2][1..] == []; }
    assert Replay(s2, [a3], 1.0) == Replay(s3, [], 1.0) by { assert [a3][1..] == []; }
    assert Replay(s1, [b2, a3], 1.0) == Replay(s2, [a3], 1.0) by { assert [b2, a3][1..] == [a3]; }
    assert Replay(s0, [a1, b2], 1.0) == Replay(s1, [b2], 1.0) by { assert [a1, b2][1..] == [b2]; }
    assert Replay(s0, [a1, b2, a3], 1.0) == Replay(s1, [b2, a3], 1.0) by { assert [a1, b2, a3][1..] == [b2, a3]; }
  }

  /** Replaying two sequences one after the other is replaying their concatenation. */
  lemma {:induction false} ReplayConcat(s: Standing, xs: seq<Offer>, ys: seq<Offer>, increment: real)
    ensures Replay(Replay(s, xs, increment), ys, increment) == Replay(s, xs + ys, increment)
    decreases |xs|
  {
    if |xs| == 0 {
      assert xs + ys == ys;
    } else {
      assert (xs + ys)[0] == xs[0];
      assert (xs + ys)[1..] == xs[1..] + ys;
      ReplayConcat(Step(s, xs[0].bidder, xs[0].amount, increment).1, xs[1..], ys, increment);
    }
  }

  /** Over any sequence of bids the price never goes down: a longer history never shows a lower price. */
  lemma {:induction false} PriceNeverDecreases(s: Standing, offers: seq<Offer>, i: nat, j: nat, increment: real)
    requires 0.0 <= increment && Consistent(s)
    requires i <= j <= |offers|
    ensures Replay(s, offers[..i], increment).priceNow <= Replay(s, offers[..j], increment).priceNow
  {
    ReplayConcat(s, offers[..i], offers[i..j], increment);
    assert offers[..i] + offers[i..j] == offers[..j];
  }

  /**
   An admitted first bid that reaches the price is accepted, and then the bidder is the
   auction's current winner at the unchanged price.
   */
  lemma FirstBidMakesBidderWinner(db: Db, a: AuctionHandle, s: SessionHandle, offer: real, now: int)
    requires Auctions.Open(db, a, now) && a.siteId in db.sites && s.id in db.sessions && 0.0 <= offer
    requires Auctions.Bidder(db, s).Some? && Auctions.BidderAdmitted(db, a, s, Auctions.Bidder(db, s).value, now)
    requires db.auctions[a.id].standing.winner.None? && db.auctions[a.id].standing.priceNow <= offer
    ensures var r := Auctions.Bid(db, a, Some(s), offer, now);
            var bidder := Auctions.Bidder(db, s).value;
            && r.Ok? && r.value.0
            && Auctions.CurrentWinner(r.value.1, a) == Ok(Some(UserHandle(bidder, a.siteId, db.users[bidder].username)))
            && Auctions.CurrentPrice(r.value.1, a) == Auctions.CurrentPrice(db, a)
  {
  }

  // ---------------------------------------------------------------------------
  // Sessions

  /** Logging out twice: the second call finds no session. */
  lemma LogoutTwiceFails(db: Db, h: SessionHandle)
    requires Sessions.Logout(db, h).Ok?
    ensures Sessions.Logout(Sessions.Logout(db, h).value, h) == Err(InvalidOperation)
  {
  }

  /** In a consistent store, credentials pick out at most one user. */
  lemma CredentialsAreUnique(db: Db, siteId: SiteId, username: string, password: Hash, k: UserId)
    requires Valid(db)
    requires k in db.users && HasCredentials(db.users[k], siteId, username, password)
    ensures FindByCredentials(db.users, siteId, username, password) == Some(k)
  {
  }

  /**
   A second login before any logout returns the same session, now valid until the
   second login's time plus the expiration.
   */
  lemma SecondLoginRefreshes(db: Db, h: SiteHandle, username: string, password: string, now: int, later: int, hash: Hasher)
    requires Valid(db)
    requires Sites.Login(db, h, Some(username), Some(password), now, hash).Ok?
    requires Sites.Login(db, h, Some(username), Some(password), now, hash).value.0.Some?
    ensures var (s, db1) := Sites.Login(db, h, Some(username), Some(password), now, hash).value;
            var r := Sites.Login(db1, h, Some(username), Some(password), later, hash);
            && r.Ok? && r.value.0 == s
            && r.value.1.sessions[s.value.id].validUntil == later + h.site.sessionExpiration
  {
  }

  /**
   Login as written: after a login and a logout, the same credentials no longer yield a
   session; the store reports itself unavailable.
   */
  lemma ReloginAfterLogoutFails(db: Db, h: SiteHandle, username: string, password: string, now: int, later: int, hash: Hasher)
    requires Valid(db)
    requires Sites.Login(db, h, Some(username), Some(password), now, hash).Ok?
    requires Sites.Login(db, h, Some(username), Some(password), now, hash).value.0.Some?
    ensures var (s, db1) := Sites.Login(db, h, Some(username), Some(password), now, hash).value;
            && Sessions.Logout(db1, s.value).Ok?
            && Sites.Login(Sessions.Logout(db1, s.value).value, h, Some(username), Some(password), later, hash)
                 == Err(UnavailableDb)
  {
  }

  /** Login as intended: after a login and a logout, the same credentials open a new session for the same user. */
  lemma IntendedReloginAfterLogout(db: Db, h: SiteHandle, username: string, password: string, now: int, later: int, hash: Hasher)
    requires Valid(db)
    requires Sites.LoginIntended(db, h, Some(username), Some(password), now, hash).Ok?
    requires Sites.LoginIntended(db, h, Some(username), Some(password), now, hash).value.0.Some?
    ensures var (s, db1) := Sites.LoginIntended(db, h, Some(username), Some(password), now, hash).value;
            && Sessions.Logout(db1, s.value).Ok?
            && var r := Sites.LoginIntended(Sessions.Logout(db1, s.value).value, h, Some(username), Some(password), later, hash);
               && r.Ok? && r.value.0 == s
               && r.value.1.sessions[s.value.id] == Session(s.value.id, h.id, later + h.site.sessionExpiration)
  {
  }

  /**
   On a site that is still stored, valid credentials under a name free in the whole store
   create a user, and that user can log in at once, getting a session keyed by its id.
   */
  lemma CreatedUserCanLogIn(db: Db, h: SiteHandle, username: string, password: string, now: int, hash: Hasher)
    requires Valid(db)
    requires h.id in db.sites && db.sites[h.id].name == h.site.name
    requires Sites.CheckUsernameAndPassword(Some(username), Some(password)).Pass?
    requires forall k :: k in db.users ==> db.users[k].username != username
    ensures Sites.CreateUser(db, h, Some(username), Some(password), hash, None).Ok?
    ensures var db1 := Sites.CreateUser(db, h, Some(username), Some(password), hash, None).value;
            var r := Sites.Login(db1, h, Some(username), Some(password), now, hash);
            && r.Ok? && r.value.0 == Some(SessionHandle(db.nextUserId, h.id, username))
            && r.value.1.sessions[db.nextUserId] == Session(db.nextUserId, h.id, now + h.site.sessionExpiration)
  {
  }

  /**
   The expiry boundaries differ: at the very second a session's validity ends, auction
   creation (Data.cs:531) and bidding (Data.cs:711) still accept it, while the reaper
   removes it (Data.cs:325).
   */
  lemma ExpiryBoundary(db: Db, site: SiteHandle, s: SessionHandle, a: AuctionHandle, offer: real,
                       description: Option<string>, endsOn: int, startingPrice: real, now: int)
    requires s.id in db.sessions && db.sessions[s.id].siteId == site.id
    requires db.sessions[s.id].validUntil == now
    ensures Sessions.CreateAuction(db, s, description, endsOn, startingPrice, now) != Err(InvalidOperation)
    ensures Auctions.Open(db, a, now) && a.siteId in db.sites && 0.0 <= offer && Auctions.Bidder(db, s).Some? &&
            !Auctions.IsSeller(db, Auctions.Bidder(db, s).value, db.auctions[a.id]) &&
            db.users[Auctions.Bidder(db, s).value].siteId == a.siteId ==>
              && Auctions.BidderAdmitted(db, a, s, Auctions.Bidder(db, s).value, now)
              && Auctions.Bid(db, a, Some(s), offer, now).Ok?
    ensures s.id !in Sites.OnRingingEvent(db, site, now).sessions
  {
  }

  /** A session the reaper keeps on its site is still usable for creating auctions. */
  lemma ReapedSiteKeepsOnlyUsableSessions(db: Db, site: SiteHandle, s: SessionHandle, now: int)
    requires s.id in Sites.OnRingingEvent(db, site, now).sessions
    requires db.sessions[s.id].siteId == site.id
    ensures Sessions.Usable(Sites.OnRingingEvent(db, site, now), s, now)
  {
  }

  // ---------------------------------------------------------------------------
  // Entity lifecycle

  /** Once deleted, an auction refuses every operation with InvalidOperation. */
  lemma DeletedAuctionIsGone(db: Db, a: AuctionHandle, session: Option<SessionHandle>, offer: real, now: int)
    requires Auctions.Delete(db, a).Ok?
    ensures var db' := Auctions.Delete(db, a).value;
            && Auctions.CurrentPrice(db', a) == Err(InvalidOperation)
            && Auctions.CurrentWinner(db', a) == Err(InvalidOperation)
            && Auctions.Bid(db', a, session, offer, now) == Err(InvalidOperation)
            && Auctions.Delete(db', a) == Err(InvalidOperation)
  {
  }

  /**
   Deleting a site in a consistent store leaves nothing of it: no site of that name,
   and no user, session or auction of the site it named.
   */
  lemma DeletedSiteLeavesNothing(db: Db, h: SiteHandle, id: SiteId)
    requires Valid(db)
    requires Sites.Delete(db, h).Ok?
    requires id in db.sites && db.sites[id].name == h.site.name
    ensures var db' := Sites.Delete(db, h).value;
            && !SiteLive(db', h)
            && (forall k :: k in db'.users ==> db'.users[k].siteId != id)
            && (forall k :: k in db'.sessions ==> db'.sessions[k].siteId != id)
            && (forall k :: k in db'.auctions ==> db'.auctions[k].siteId != id)
  {
  }

  /**
   A site's clock reads the caller's time while the site exists and refuses once the site
   is deleted; the reaper and Bid are handed that same time.
   */
  lemma SiteClockStopsWithSite(db: Db, h: SiteHandle, now: int)
    requires SiteLive(db, h)
    ensures Sites.Now(db, h, now) == Ok(now)
    ensures Sites.Delete(db, h).Ok?
    ensures Sites.Now(Sites.Delete(db, h).value, h, now) == Err(InvalidOperation)
  {
  }

  /**
   Deleting a user keeps the auctions it was leading but not selling, now without a
   leader; their current winner reads as none.
   */
  lemma DeletedUserNoLongerWins(db: Db, h: UserHandle, now: int, k: AuctionId)
    requires Valid(db)
    requires Users.Delete(db, h, now).Ok?
    requires h.id in db.users && Named(db.users[h.id], h.siteId, h.username)
    requires k in db.auctions && db.auctions[k].standing.winner == Some(h.id)
    ensures var db' := Users.Delete(db, h, now).value;
            && k in db'.auctions
            && db'.auctions[k].standing.winner.None?
            && Auctions.CurrentWinner(db', AuctionHandle(k, db.auctions[k].siteId)) == Ok(None)
  {
  }

  /** The auctions a user has won are exactly those, ended, whose current winner carries the user's name. */
  lemma WonAuctionsAgreeWithCurrentWinner(db: Db, h: UserHandle, now: int, k: AuctionId)
    requires Users.WonAuctions(db, h, now).Ok?
    requires k in db.auctions
    ensures var w := Auctions.CurrentWinner(db, AuctionHandle(k, db.auctions[k].siteId));
            k in Users.WonAuctions(db, h, now).value <==>
              && db.auctions[k].endsOn <= now
              && w.Ok? && w.value.Some? && w.value.value.username == h.username
  {
  }

  /** Every auction a site lists as not ended is still open for bids. */
  lemma ListedAuctionsAreOpen(db: Db, h: SiteHandle, now: int, k: AuctionId)
    requires Sites.AuctionsOf(db, h, true, now).Ok?
    requires k in Sites.AuctionsOf(db, h, true, now).value
    ensures Auctions.Open(db, AuctionHandle(k, h.id), now)
  {
  }

  // ---------------------------------------------------------------------------
  // Site directory

  /**
   A connection string that CreateHost accepts, with any clock factory, loads a host that
   keeps both.
   */
  lemma CreatedHostLoads(connectionString: string, clockFactory: Hosting.ClockFactory)
    ensures Hosting.CreateHost(Some(connectionString)).Ok?
    ensures Hosting.LoadHost(Some(connectionString), Some(clockFactory)) == Ok(Hosting.Host(connectionString, clockFactory))
  {
  }

  /** A site just created loads back with the name, timezone, expiration and increment it was created with. */
  lemma CreatedSiteLoads(db: Db, name: string, timezone: int, sessionExpiration: int, minimumBidIncrement: real)
    requires Valid(db)
    requires Hosting.CreateSite(db, Some(name), timezone, sessionExpiration, minimumBidIncrement, None).Ok?
    ensures var db' := Hosting.CreateSite(db, Some(name), timezone, sessionExpiration, minimumBidIncrement, None).value;
            Hosting.LoadSite(db', Some(name)) ==
              Ok((SiteHandle(db.nextSiteId, Site(name, timezone, sessionExpiration, minimumBidIncrement)),
                  Hosting.Alarm(timezone, Hosting.ReapingPeriodMs, db.nextSiteId)))
  {
  }

  // ---------------------------------------------------------------------------
  // Handles from the listings

  /** In a consistent store every session of a live site is listed, with the name of its user. */
  lemma ListedSessionsAreLive(db: Db, h: SiteHandle, k: SessionId)
    requires Valid(db) && SiteLive(db, h)
    requires k in db.sessions && db.sessions[k].siteId == h.id
    ensures Sites.SessionsOf(db, h).Ok?
    ensures SessionHandle(k, h.id, db.users[k].username) in Sites.SessionsOf(db, h).value
  {
  }

  /**
   A handle listed by ToyGetUsers carries key 0, so the seller guard of User.Delete, which
   matches on that key, finds nothing: the user is deleted although it sells an auction
   that has not ended, and the cascade takes that auction.
   */
  lemma ListedUserDeletesDespiteOpenSale(db: Db, h: SiteHandle, k: UserId, j: AuctionId, now: int)
    requires Valid(db) && SiteLive(db, h)
    requires k in db.users && db.users[k].siteId == h.id
    requires j in db.auctions && db.auctions[j].seller == k && db.auctions[j].endsOn >= now
    requires forall i :: i in db.auctions ==> db.auctions[i].standing.winner != Some(k)
    ensures var u := UserHandle(0, h.id, db.users[k].username);
            && u in Sites.UsersOf(db, h).value
            && Users.SellsOpenAuction(db, k, now)
            && Users.Delete(db, u, now).Ok?
            && j !in Users.Delete(db, u, now).value.auctions
  {
  }

  /**
   Through the same handle the leads of the user are not cleared, because that step also
   matches on key 0: if the user leads an auction, the removal breaks the leader's foreign
   key and fails.
   */
  lemma ListedUserLeadingFails(db: Db, h: SiteHandle, k: UserId, j: AuctionId, now: int)
    requires Valid(db) && SiteLive(db, h)
    requires k in db.users && db.users[k].siteId == h.id
    requires j in db.auctions && db.auctions[j].standing.winner == Some(k)
    ensures Users.Delete(db, UserHandle(0, h.id, db.users[k].username), now)
              == Err(SaveChangesError(UpdateFault(Some(ForeignKeyConflict))))
  {
  }

  // ---------------------------------------------------------------------------
  // Lengths in UTF-16 code units

  /** A run of n characters beyond U+FFFF is 2n code units long. */
  lemma {:induction false} AstralRunLength(n: nat, c: char)
    requires c as int >= 0x1_0000
    ensures Utf16Length(seq(n, _ => c)) == 2 * n
  {
    if n > 0 {
      assert seq(n, _ => c) == [c] + seq(n - 1, _ => c);
      Utf16LengthConcat([c], seq(n - 1, _ => c));
      AstralRunLength(n - 1, c);
    }
  }

  /**
   A user name of 33 characters beyond U+FFFF is 66 code units long and is refused as
   too long, although it has only 33 characters.
   */
  lemma AstralUsernameIsTooLong()
    ensures Sites.CheckUsernameAndPassword(Some(seq(33, _ => '\U{1F600}')), Some("pass")) == Fail(Argument)
  {
    AstralRunLength(33, '\U{1F600}');
  }

  /** Likewise a site name of 65 such characters is 130 code units long and is refused. */
  lemma AstralSiteNameIsTooLong()
    ensures Hosting.CheckSiteName(Some(seq(65, _ => '\U{1F600}'))) == Fail(Argument)
  {
    AstralRunLength(65, '\U{1F600}');
  }

  /** Creating a site adds exactly its name and timezone to the directory. */
  lemma CreatedSiteIsListed(db: Db, name: string, timezone: int, sessionExpiration: int, minimumBidIncrement: real, fault: Option<DbFault>)
    requires Valid(db)
    requires Hosting.CreateSite(db, Some(name), timezone, sessionExpiration, minimumBidIncrement, fault).Ok?
    ensures var db' := Hosting.CreateSite(db, Some(name), timezone, sessionExpiration, minimumBidIncrement, fault).value;
            Hosting.GetSiteInfos(db') == Hosting.GetSiteInfos(db) + {(name, timezone)}
  {
  }

  /** A minimum bid increment of 0 passes the range checks: a free, well-formed site with it is created. */
  lemma ZeroIncrementIsAccepted(db: Db, name: string, timezone: int, sessionExpiration: int)
    requires Hosting.CheckSiteName(Some(name)).Pass?
    requires MinTimeZone <= timezone <= MaxTimeZone && 0 < sessionExpiration
    requires forall k :: k in db.sites ==> db.sites[k].name != name
    ensures var r := Hosting.CreateSite(db, Some(name), timezone, sessionExpiration, 0.0, None);
            r.Ok? && r.value.sites[db.nextSiteId].minimumBidIncrement == 0.0
  {
  }

  /** Creating a site under a name already taken fails and adds nothing. */
  lemma SiteNamesStayUnique(db: Db, name: string, timezone: int, sessionExpiration: int, minimumBidIncrement: real, fault: Option<DbFault>,
                           timezone2: int, sessionExpiration2: int, minimumBidIncrement2: real, fault2: Option<DbFault>)
    requires Hosting.CreateSite(db, Some(name), timezone, sessionExpiration, minimumBidIncrement, fault).Ok?
    requires Hosting.ParametersInRange(timezone2, sessionExpiration2, minimumBidIncrement2)
    ensures var db' := Hosting.CreateSite(db, Some(name), timezone, sessionExpiration, minimumBidIncrement, fault).value;
            Hosting.CreateSite(db', Some(name), timezone2, sessionExpiration2, minimumBidIncrement2, fault2) == Err(NameAlreadyInUse)
  {
  }
}

=== FILE: session.dfy ===
/**
 The operations of a Session handle (Data.cs:475-601): creating an auction on behalf of
 the session's user, and logging out. Both start with the session's live check, by key.
 */
module Sessions {
  import opened Wrappers
  import opened Bidding
  import opened Store

  /** The session exists and, by the test of Data.cs:531, has not expired at time now. */
  predicate Usable(db: Db, h: SessionHandle, now: int)
  {
    h.id in db.sessions && now <= db.sessions[h.id].validUntil
  }

  /**
   Session.CreateAuction (Data.cs:525-560). After the session checks come the argument
   checks, in source order; then the seller is looked up by the session's site and user
   name, the auction is added with the starting price, no leader and a zero maximum, and
   the session slides to now plus the site's expiration.
   */
  ghost function CreateAuction(db: Db, h: SessionHandle, description: Option<string>, endsOn: int, startingPrice: real, now: int)
    : (r: Result<(AuctionHandle, Db), Error>)
    ensures !Usable(db, h, now) ==> r == Err(InvalidOperation)
    ensures Usable(db, h, now) && description.None? ==> r == Err(ArgumentNull)
    ensures Usable(db, h, now) && description == Some("") ==> r == Err(Argument)
    ensures Usable(db, h, now) && description.Some? && description.value != "" && startingPrice < 0.0 ==>
              r == Err(ArgumentOutOfRange)
    ensures Usable(db, h, now) && description.Some? && description.value != "" && startingPrice >= 0.0 && endsOn < now ==>
              r == Err(UnavailableTimeMachine)
    ensures Usable(db, h, now) && description.Some? && description.value != "" && 0.0 <= startingPrice && now <= endsOn &&
            h.siteId in db.sites && (exists k :: k in db.users && Named(db.users[k], h.siteId, h.username)) ==>
              r.Ok?
    ensures r.Ok? ==>
              var (a, db') := r.value;
              && Usable(db, h, now)
              && a.siteId == h.siteId
              && a.id == db.nextAuctionId
              && db'.auctions.Keys == db.auctions.Keys + {a.id}
              && (forall k :: k in db.auctions && k != a.id ==> db'.auctions[k] == db.auctions[k])
              && db'.auctions[a.id].siteId == h.siteId
              && db'.auctions[a.id].description == description.value
              && description.value != ""
              && db'.auctions[a.id].endsOn == endsOn
              && now <= endsOn
              && db'.auctions[a.id].standing == Standing(startingPrice, 0.0, None)
              && startingPrice >= 0.0
              && db'.auctions[a.id].seller in db.users
              && Named(db.users[db'.auctions[a.id].seller], h.siteId, h.username)
              && h.siteId in db.sites
              && db'.sessions.Keys == db.sessions.Keys
              && db'.sessions[h.id] == db.sessions[h.id].(validUntil := now + db.sites[h.siteId].sessionExpiration)
              && (forall k :: k in db.sessions && k != h.id ==> db'.sessions[k] == db.sessions[k])
              && db'.users == db.users && db'.sites == db.sites
              && db'.nextAuctionId > db.nextAuctionId
  {
    if h.id !in db.sessions then Err(InvalidOperation)
    else if now > db.sessions[h.id].validUntil then Err(InvalidOperation)
    else if description.None? then Err(ArgumentNull)
    else if description.value == "" then Err(Argument)
    else if startingPrice < 0.0 then Err(ArgumentOutOfRange)
    else if endsOn < now then Err(UnavailableTimeMachine)
    else match FindUser(db.users, h.siteId, h.username)
      case None => Err(UnavailableDb)
      case Some(seller) =>
        if h.siteId !in db.sites then Err(UnavailableDb)  // site! on a missing site
        else
          var id := db.nextAuctionId;
          var validUntil := now + db.sites[h.siteId].sessionExpiration;
          Ok((AuctionHandle(id, h.siteId),
              db.(auctions := db.auctions[id := Auction(h.siteId, seller, description.value, endsOn, Opening(startingPrice))],
                  sessions := db.sessions[h.id := db.sessions[h.id].(validUntil := validUntil)],
                  nextAuctionId := id + 1)))
  }

  /**
   Session.Logout (Data.cs:562-574): the session row goes. A second logout finds no row
   and fails. The user's SessionId column is left as it was.
   */
  function Logout(db: Db, h: SessionHandle): (r: Result<Db, Error>)
    ensures r.Err? <==> !SessionLive(db, h)
    ensures r.Err? ==> r.error == InvalidOperation
    ensures r.Ok? ==>
              && h.id !in r.value.sessions
              && r.value.sessions.Keys == db.sessions.Keys - {h.id}
              && (forall k :: k in r.value.sessions ==> r.value.sessions[k] == db.sessions[k])
              && r.value == db.(sessions := r.value.sessions)
  {
    if !SessionLive(db, h) then Err(InvalidOperation)
    else Ok(db.(sessions := db.sessions - {h.id}))
  }
}

=== FILE: site.dfy ===
/**
 The operations of a loaded Site (Data.cs:109-348): logging in, creating users,
 deleting the site, reading its clock, listing its auctions and the periodic reaping
 of expired sessions. Every operation except the reaper starts with the site's live
 check, which looks the site up by name.
 */
module Sites {
  import opened Wrappers
  import opened Bidding
  import opened Store

  /** Site.CheckUsernameAndPassword (Data.cs:148-155): nulls first, then the lengths. */
  function CheckUsernameAndPassword(username: Option<string>, password: Option<string>): (r: Outcome<Error>)
    ensures r.Pass? <==>
              && username.Some? && password.Some?
              && WellFormedUsername(username.value)
              && Utf16Length(password.value) >= MinUserPassword
    ensures username.None? || password.None? ==> r == Fail(ArgumentNull)
    ensures username.Some? && password.Some? && r.Fail? ==> r == Fail(Argument)
  {
    if username.None? || password.None? then Fail(ArgumentNull)
    else if Utf16Length(username.value) < MinUserName || Utf16Length(username.value) > MaxUserName then Fail(Argument)
    else if Utf16Length(password.value) < MinUserPassword then Fail(Argument)
    else Pass
  }

  /**
   What a successful login that returns session s did to the store: s belongs to the
   user of site h with the given name and password hash, its validity now ends
   `sessionExpiration` seconds from now; a new session is keyed by the user and recorded
   on the user, an existing one keeps everything but its end; nothing else changes.
   */
  ghost predicate LoggedIn(db: Db, db': Db, h: SiteHandle, username: string, password: Hash, now: int, s: SessionHandle)
  {
    && s.id in db.users
    && HasCredentials(db.users[s.id], h.id, username, password)
    && s.siteId == h.id && s.username == username
    && s.id in db'.sessions
    && db'.users.Keys == db.users.Keys
    && db'.sessions[s.id].validUntil == now + h.site.sessionExpiration
    && (s.id in db.sessions ==>
          && db'.sessions[s.id] == db.sessions[s.id].(validUntil := now + h.site.sessionExpiration)
          && db'.users[s.id] == db.users[s.id])
    && (s.id !in db.sessions ==>
          && db'.sessions[s.id] == Session(s.id, h.id, now + h.site.sessionExpiration)
          && db'.users[s.id] == db.users[s.id].(sessionId := Some(s.id)))
    && (forall k :: k != s.id ==> (k in db'.sessions <==> k in db.sessions))
    && (forall k :: k in db.sessions && k != s.id ==> db'.sessions[k] == db.sessions[k])
    && (forall k :: k in db.users && k != s.id ==> db'.users[k] == db.users[k])
    && db'.sites == db.sites
    && db'.auctions == db.auctions
    && db'.nextSiteId == db.nextSiteId && db'.nextUserId == db.nextUserId && db'.nextAuctionId == db.nextAuctionId
  }

  /** A new session for user uid, keyed by the user's id, recorded on the user (Data.cs:248-252). */
  ghost function OpenSession(db: Db, h: SiteHandle, uid: UserId, now: int): (r: Result<(Option<SessionHandle>, Db), Error>)
    requires uid in db.users
    ensures r.Ok? <==> uid !in db.sessions
    ensures r.Err? ==> r.error == SaveChangesError(UpdateFault(Some(DuplicatePrimaryKey)))
    ensures r.Ok? ==>
              && r.value.0 == Some(SessionHandle(uid, h.id, db.users[uid].username))
              && r.value.1.sessions.Keys == db.sessions.Keys + {uid}
              && r.value.1.users.Keys == db.users.Keys && r.value.1.users[uid].sessionId == Some(uid)
    ensures r.Ok? && db.users[uid].siteId == h.id ==>
              LoggedIn(db, r.value.1, h, db.users[uid].username, db.users[uid].password, now, r.value.0.value)
  {
    if uid in db.sessions then
      // The session table already holds this key. Both callers reach this only from a
      // store where the user's SessionId is empty although a row carries its key, which
      // a consistent store never holds (Store.SessionsValid); Entity Framework might
      // refuse the second tracked entity before SaveChanges reports the duplicate key.
      Err(SaveChangesError(UpdateFault(Some(DuplicatePrimaryKey))))
    else
      var user := db.users[uid];
      Ok((Some(SessionHandle(uid, h.id, user.username)),
          db.(sessions := db.sessions[uid := Session(uid, h.id, now + h.site.sessionExpiration)],
              users := db.users[uid := user.(sessionId := Some(uid))])))
  }

  /** The user's existing session slides to now plus the expiration and keeps its key (Data.cs:256-260). */
  ghost function RefreshSession(db: Db, h: SiteHandle, uid: UserId, now: int): (r: Result<(Option<SessionHandle>, Db), Error>)
    requires uid in db.users && uid in db.sessions
    ensures r.Ok? && r.value.0 == Some(SessionHandle(uid, h.id, db.users[uid].username))
    ensures r.value.1.sessions.Keys == db.sessions.Keys && r.value.1.users == db.users
    ensures db.users[uid].siteId == h.id ==>
              LoggedIn(db, r.value.1, h, db.users[uid].username, db.users[uid].password, now, r.value.0.value)
  {
    Ok((Some(SessionHandle(uid, h.id, db.users[uid].username)),
        db.(sessions := db.sessions[uid := db.sessions[uid].(validUntil := now + h.site.sessionExpiration)])))
  }

  /**
   Site.Login as written (Data.cs:234-263). Unknown credentials are not an error: the
   result is no session. Whether to open or to refresh a session is decided by the
   user's SessionId column, which nothing ever clears: once a user's session has been
   removed, by logout or by the reaper, the user can no longer log in.
   */
  ghost function Login(db: Db, h: SiteHandle, username: Option<string>, password: Option<string>, now: int, hash: Hasher)
    : (r: Result<(Option<SessionHandle>, Db), Error>)
    ensures !SiteLive(db, h) ==> r == Err(InvalidOperation)
    ensures SiteLive(db, h) && CheckUsernameAndPassword(username, password).Fail? ==>
              r == Err(CheckUsernameAndPassword(username, password).error)
    ensures r.Ok? && r.value.0.None? ==>
              && r.value.1 == db
              && forall k :: k in db.users ==> !HasCredentials(db.users[k], h.id, username.value, hash(password.value))
    ensures r.Ok? && r.value.0.Some? ==>
              LoggedIn(db, r.value.1, h, username.value, hash(password.value), now, r.value.0.value)
    ensures SiteLive(db, h) && CheckUsernameAndPassword(username, password).Pass? ==>
              var found := FindByCredentials(db.users, h.id, username.value, hash(password.value));
              found.Some? && db.users[found.value].sessionId.Some? && found.value !in db.sessions ==>
                r == Err(UnavailableDb)
    ensures SiteLive(db, h) && CheckUsernameAndPassword(username, password).Pass? &&
            (forall k :: k in db.users ==> !HasCredentials(db.users[k], h.id, username.value, hash(password.value))) ==>
              r == Ok((None, db))
    ensures SiteLive(db, h) && CheckUsernameAndPassword(username, password).Pass? ==>
              var found := FindByCredentials(db.users, h.id, username.value, hash(password.value));
              found.Some? && (db.users[found.value].sessionId.None? <==> found.value !in db.sessions) ==>
                r.Ok? && r.value.0 == Some(SessionHandle(found.value, h.id, username.value))
  {
    if !SiteLive(db, h) then Err(InvalidOperation)
    else match CheckUsernameAndPassword(username, password)
      case Fail(e) => Err(e)
      case Pass =>
        match FindByCredentials(db.users, h.id, username.value, hash(password.value))
        case None => Ok((None, db))
        case Some(uid) =>
          if db.users[uid].sessionId.None? then OpenSession(db, h, uid, now)
          else if uid !in db.sessions then Err(UnavailableDb)  // user.Session ?? throw
          else RefreshSession(db, h, uid, now)
  }

  /**
   Login as evidently intended: a user without a session row gets a new one, whatever
   the SessionId column says, so matching credentials always yield a session.
   */
  ghost function LoginIntended(db: Db, h: SiteHandle, username: Option<string>, password: Option<string>, now: int, hash: Hasher)
    : (r: Result<(Option<SessionHandle>, Db), Error>)
    ensures !SiteLive(db, h) ==> r == Err(InvalidOperation)
    ensures SiteLive(db, h) && CheckUsernameAndPassword(username, password).Fail? ==>
              r == Err(CheckUsernameAndPassword(username, password).error)
    ensures r.Ok? && r.value.0.None? ==>
              && r.value.1 == db
              && forall k :: k in db.users ==> !HasCredentials(db.users[k], h.id, username.value, hash(password.value))
    ensures r.Ok? && r.value.0.Some? ==>
              LoggedIn(db, r.value.1, h, username.value, hash(password.value), now, r.value.0.value)
    ensures SiteLive(db, h) && CheckUsernameAndPassword(username, password).Pass? &&
            (exists k :: k in db.users && HasCredentials(db.users[k], h.id, username.value, hash(password.value))) ==>
              var found := FindByCredentials(db.users, h.id, username.value, hash(password.value));
              r.Ok? && r.value.0 == Some(SessionHandle(found.value, h.id, username.value))
    ensures SiteLive(db, h) && CheckUsernameAndPassword(username, password).Pass? &&
            (forall k :: k in db.users ==> !HasCredentials(db.users[k], h.id, username.value, hash(password.value))) ==>
              r == Ok((None, db))
  {
    if !SiteLive(db, h) then Err(InvalidOperation)
    else match CheckUsernameAndPassword(username, password)
      case Fail(e) => Err(e)
      case Pass =>
        match FindByCredentials(db.users, h.id, username.value, hash(password.value))
        case None => Ok((None, db))
        case Some(uid) =>
          if uid !in db.sessions then OpenSession(db, h, uid, now)
          else RefreshSession(db, h, uid, now)
  }

  /**
   Site.CreateUser (Data.cs:264-288). The name must be free in the whole store, not only
   on this site. A store fault on saving is translated by SaveChanges; a site key that
   no longer exists (a handle whose site was deleted and re-created under the same name)
   breaks the user's foreign key.
   */
  ghost function CreateUser(db: Db, h: SiteHandle, username: Option<string>, password: Option<string>, hash: Hasher, fault: Option<DbFault>)
    : (r: Result<Db, Error>)
    ensures !SiteLive(db, h) ==> r == Err(InvalidOperation)
    ensures SiteLive(db, h) && CheckUsernameAndPassword(username, password).Fail? ==>
              r == Err(CheckUsernameAndPassword(username, password).error)
    ensures SiteLive(db, h) && CheckUsernameAndPassword(username, password).Pass? &&
            (exists k :: k in db.users && db.users[k].username == username.value) ==>
              r == Err(NameAlreadyInUse)
    ensures SiteLive(db, h) && CheckUsernameAndPassword(username, password).Pass? &&
            (forall k :: k in db.users ==> db.users[k].username != username.value) && h.id in db.sites ==>
              && (fault.None? ==> r.Ok?)
              && (fault.Some? ==> r == Err(SaveChangesError(fault.value)))
    ensures r.Ok? ==>
              && CheckUsernameAndPassword(username, password).Pass?
              && (forall k :: k in db.users ==> db.users[k].username != username.value)
              && db.nextUserId in r.value.users
              && r.value.users[db.nextUserId] == User(h.id, username.value, hash(password.value), None)
              && r.value.users.Keys == db.users.Keys + {db.nextUserId}
              && (forall k :: k in db.users && k != db.nextUserId ==> r.value.users[k] == db.users[k])
              && r.value.nextUserId > db.nextUserId
              && h.id in db.sites
              && r.value.sites == db.sites && r.value.sessions == db.sessions && r.value.auctions == db.auctions
  {
    if !SiteLive(db, h) then Err(InvalidOperation)
    else match CheckUsernameAndPassword(username, password)
      case Fail(e) => Err(e)
      case Pass =>
        if exists k :: k in db.users && db.users[k].username == username.value then Err(NameAlreadyInUse)
        else if h.id !in db.sites then Err(SaveChangesError(UpdateFault(Some(ForeignKeyConflict))))
        else if fault.Some? then Err(SaveChangesError(fault.value))
        else
          var id := db.nextUserId;
          Ok(db.(users := db.users[id := User(h.id, username.value, hash(password.value), None)],
                 nextUserId := id + 1))
  }

  /**
   Site.Delete (Data.cs:289-302): the site row goes, and the store's cascades take its
   users (Users.SiteId), their sessions (Sessions.UserId, Data.cs:78) and the auctions
   they sell (Auctions.IdSeller, Data.cs:79-80).
   */
  ghost function Delete(db: Db, h: SiteHandle): (r: Result<Db, Error>)
    ensures !SiteLive(db, h) <==> r == Err(InvalidOperation)
    ensures SiteLive(db, h) ==> r.Ok?
    ensures r.Ok? ==>
              var db' := r.value;
              && (forall k :: k in db'.sites <==> k in db.sites && db.sites[k].name != h.site.name)
              && (forall k :: k in db'.users <==> k in db.users && db.users[k].siteId in db'.sites)
              && (forall k :: k in db'.sessions <==> k in db.sessions && db.sessions[k].userId in db'.users)
              && (forall k :: k in db'.auctions <==> k in db.auctions && db.auctions[k].seller in db'.users)
              && (forall k :: k in db'.sites ==> db'.sites[k] == db.sites[k])
              && (forall k :: k in db'.users ==> db'.users[k] == db.users[k])
              && (forall k :: k in db'.sessions ==> db'.sessions[k] == db.sessions[k])
              && (forall k :: k in db'.auctions ==> db'.auctions[k] == db.auctions[k])
  {
    if !SiteLive(db, h) then Err(InvalidOperation)
    else
      var sites := map k | k in db.sites && db.sites[k].name != h.site.name :: db.sites[k];
      var users := map k | k in db.users && db.users[k].siteId in sites :: db.users[k];
      var sessions := map k | k in db.sessions && db.sessions[k].userId in users :: db.sessions[k];
      var auctions := map k | k in db.auctions && db.auctions[k].seller in users :: db.auctions[k];
      Ok(db.(sites := sites, users := users, sessions := sessions, auctions := auctions))
  }

  /** Site.Now (Data.cs:304-308): the clock's time, once the site is known to exist. */
  function Now(db: Db, h: SiteHandle, now: int): (r: Result<int, Error>)
    ensures r.Ok? <==> SiteLive(db, h)
    ensures r.Ok? ==> r.value == now
    ensures r.Err? ==> r.error == InvalidOperation
  {
    if !SiteLive(db, h) then Err(InvalidOperation) else Ok(now)
  }

  /** Whether the reaper removes a session at time now (Data.cs:325). */
  predicate Reapable(s: Session, siteId: SiteId, now: int)
  {
    s.siteId == siteId && s.validUntil <= now
  }

  /**
   Site.OnRingingEvent (Data.cs:320-329): the alarm's callback removes every session of
   this site whose validity has ended, boundary included. It runs no live check.
   */
  function OnRingingEvent(db: Db, h: SiteHandle, now: int): (r: Db)
    ensures forall k :: k in r.sessions <==> k in db.sessions && !Reapable(db.sessions[k], h.id, now)
    ensures forall k :: k in r.sessions ==> r.sessions[k] == db.sessions[k]
    ensures forall k :: k in r.sessions && r.sessions[k].siteId == h.id ==> now < r.sessions[k].validUntil
    ensures r == db.(sessions := r.sessions)
  {
    db.(sessions := map k | k in db.sessions && !Reapable(db.sessions[k], h.id, now) :: db.sessions[k])
  }

  /**
   The auctions Site.ToyGetAuctions yields (Data.cs:193-233), as keys: all auctions of the
   site, or only those whose end is now or later.
   */
  function AuctionsOf(db: Db, h: SiteHandle, onlyNotEnded: bool, now: int): (r: Result<set<AuctionId>, Error>)
    ensures r.Err? <==> !SiteLive(db, h)
    ensures r.Err? ==> r.error == InvalidOperation
    ensures r.Ok? ==> forall k :: k in r.value <==>
              k in db.auctions && db.auctions[k].siteId == h.id && (onlyNotEnded ==> now <= db.auctions[k].endsOn)
  {
    if !SiteLive(db, h) then Err(InvalidOperation)
    else Ok(set k | k in db.auctions && db.auctions[k].siteId == h.id && (!onlyNotEnded || db.auctions[k].endsOn >= now))
  }

  /**
   The users Site.ToyGetUsers yields (Data.cs:157-172). Each handle is built from site
   and name only, so its key is left at 0, which no user of a consistent store has
   (Store.KeysIssued).
   */
  function UsersOf(db: Db, h: SiteHandle): (r: Result<set<UserHandle>, Error>)
    ensures r.Err? <==> !SiteLive(db, h)
    ensures r.Err? ==> r.error == InvalidOperation
    ensures r.Ok? ==> forall u :: u in r.value <==>
              u.id == 0 && u.siteId == h.id && exists k :: k in db.users && Named(db.users[k], h.id, u.username)
  {
    if !SiteLive(db, h) then Err(InvalidOperation)
    else Ok(set k | k in db.users && db.users[k].siteId == h.id :: UserHandle(0, h.id, db.users[k].username))
  }

  /**
   The sessions Site.ToyGetSessions yields (Data.cs:174-190), each with its own key and the
   name of its user. The required relationship of Data.cs:78 makes the Include an inner
   join, so a session whose user row is missing is not listed.
   */
  function SessionsOf(db: Db, h: SiteHandle): (r: Result<set<SessionHandle>, Error>)
    ensures r.Err? <==> !SiteLive(db, h)
    ensures r.Err? ==> r.error == InvalidOperation
    ensures r.Ok? ==> forall s :: s in r.value <==>
              && s.id in db.sessions && db.sessions[s.id].siteId == h.id && s.siteId == h.id
              && db.sessions[s.id].userId in db.users
              && s.username == db.users[db.sessions[s.id].userId].username
  {
    if !SiteLive(db, h) then Err(InvalidOperation)
    else Ok(set k | k in db.sessions && db.sessions[k].siteId == h.id && db.sessions[k].userId in db.users ::
              SessionHandle(k, h.id, db.users[db.sessions[k].userId].username))
  }
}

=== FILE: store.dfy ===
/**
 The persistent store of an auction host as one immutable value: the four tables of
 MyDbContext (Data.cs:94-97) as maps from primary key to record, plus the identity
 counters that hand out new keys. Also the limits of the Global class, the error
 taxonomy, the translation of store faults (MyDbContext.SaveChanges), the entity
 handles the façade gives out, the lookups the operations perform and the
 integrity rules a consistent store satisfies.
 */
module Store {
  import opened Wrappers
  import opened Bidding

  // Limits of the Global class (Data.cs:24-36).
  const MinSiteName: int := 1
  const MaxSiteName: int := 128
  const MinUserName: int := 3
  const MaxUserName: int := 64
  const MinUserPassword: int := 4
  const MinTimeZone: int := -12
  const MaxTimeZone: int := 12

  // SQL Server error numbers: a duplicate row in a unique index, a duplicate
  // primary key, and a foreign key conflict.
  const DuplicateKeyRow: int := 2601
  const DuplicatePrimaryKey: int := 2627
  const ForeignKeyConflict: int := 547

  /** The exceptions of the auction-site interface the core raises. */
  datatype Error =
    | ArgumentNull            // AuctionSiteArgumentNullException
    | Argument                // AuctionSiteArgumentException
    | ArgumentOutOfRange      // AuctionSiteArgumentOutOfRangeException
    | NameAlreadyInUse        // AuctionSiteNameAlreadyInUseException
    | InexistentName          // AuctionSiteInexistentNameException
    | InvalidOperation        // AuctionSiteInvalidOperationException
    | UnavailableTimeMachine  // AuctionSiteUnavailableTimeMachineException
    | UnavailableDb           // AuctionSiteUnavailableDbException

  /** What SaveChanges can meet: a server fault, or an update fault with the number of its inner SQL error if there is one. */
  datatype DbFault = ServerFault | UpdateFault(sqlNumber: Option<int>)

  /** The translation of MyDbContext.SaveChanges: a duplicate row in a unique index is a name clash, anything else an unavailable store. */
  function SaveChangesError(f: DbFault): (e: Error)
    ensures e == NameAlreadyInUse <==> f == UpdateFault(Some(DuplicateKeyRow))
    ensures e == NameAlreadyInUse || e == UnavailableDb
  {
    match f
    case ServerFault => UnavailableDb
    case UpdateFault(None) => UnavailableDb
    case UpdateFault(Some(n)) => if n == DuplicateKeyRow then NameAlreadyInUse else UnavailableDb
  }

  type SiteId = int
  type AuctionId = int
  /** A session's key; a session is always created with the key of its user (Data.cs:515, 520). */
  type SessionId = UserId
  type Hash = seq<bv8>
  /** The password hashing primitive, deterministic and otherwise unknown. */
  type Hasher = string -> Hash

  datatype Site = Site(name: string, timezone: int, sessionExpiration: int, minimumBidIncrement: real)

  /** A user row; sessionId is the plain SessionId column that Login fills in. */
  datatype User = User(siteId: SiteId, username: string, password: Hash, sessionId: Option<SessionId>)

  datatype Session = Session(userId: UserId, siteId: SiteId, validUntil: int)

  datatype Auction = Auction(siteId: SiteId, seller: UserId, description: string, endsOn: int, standing: Standing)

  datatype Db = Db(
    sites: map<SiteId, Site>,
    users: map<UserId, User>,
    sessions: map<SessionId, Session>,
    auctions: map<AuctionId, Auction>,
    nextSiteId: int,
    nextUserId: int,
    nextAuctionId: int)

  /** The store right after EnsureCreated: empty tables whose identities start at 1. */
  function Empty(): Db
  {
    Db(map[], map[], map[], map[], 1, 1, 1)
  }

  // Handles: what a caller holds on to. Each keeps the key its live check uses.

  /** A loaded site: its key and the record as read when it was loaded. */
  datatype SiteHandle = SiteHandle(id: SiteId, site: Site)

  datatype UserHandle = UserHandle(id: UserId, siteId: SiteId, username: string)

  /** A session as handed out by Login: its key and the site and name of its user. */
  datatype SessionHandle = SessionHandle(id: SessionId, siteId: SiteId, username: string)

  datatype AuctionHandle = AuctionHandle(id: AuctionId, siteId: SiteId)

  // Live checks: the CheckIfDeleted methods, each on its own key.

  /** Site.CheckIfDeleted looks the site up by name (Data.cs:310-318). */
  predicate SiteLive(db: Db, h: SiteHandle)
  {
    exists k :: k in db.sites && db.sites[k].name == h.site.name
  }

  /** User.CheckIfDeleted looks the user up by site and name (Data.cs:443-451). */
  predicate UserLive(db: Db, h: UserHandle)
  {
    exists k :: k in db.users && Named(db.users[k], h.siteId, h.username)
  }

  /** Session.CheckIfDeleted looks the session up by key (Data.cs:576-584). */
  predicate SessionLive(db: Db, h: SessionHandle)
  {
    h.id in db.sessions
  }

  /** Auction.CheckIfDeleted looks the auction up by key and site (Data.cs:835-843). */
  predicate AuctionLive(db: Db, h: AuctionHandle)
  {
    h.id in db.auctions && db.auctions[h.id].siteId == h.siteId
  }

  // Lookups.

  predicate Named(u: User, siteId: SiteId, username: string)
  {
    u.siteId == siteId && u.username == username
  }

  predicate HasCredentials(u: User, siteId: SiteId, username: string, password: Hash)
  {
    Named(u, siteId, username) && u.password == password
  }

  /** The user of a site with a given name, if any. */
  ghost function FindUser(users: map<UserId, User>, siteId: SiteId, username: string): (r: Option<UserId>)
    ensures r.Some? ==> r.value in users && Named(users[r.value], siteId, username)
    ensures r.None? <==> forall k :: k in users ==> !Named(users[k], siteId, username)
  {
    if exists k :: k in users && Named(users[k], siteId, username) then
      Some(var k :| k in users && Named(users[k], siteId, username); k)
    else
      None
  }

  /** The user of a site with a given name and password hash, if any (the query of Data.cs:241-243). */
  ghost function FindByCredentials(users: map<UserId, User>, siteId: SiteId, username: string, password: Hash): (r: Option<UserId>)
    ensures r.Some? ==> r.value in users && HasCredentials(users[r.value], siteId, username, password)
    ensures r.None? <==> forall k :: k in users ==> !HasCredentials(users[k], siteId, username, password)
  {
    if exists k :: k in users && HasCredentials(users[k], siteId, username, password) then
      Some(var k :| k in users && HasCredentials(users[k], siteId, username, password); k)
    else
      None
  }

  /** The site with a given name, if any. */
  ghost function FindSite(sites: map<SiteId, Site>, name: string): (r: Option<SiteId>)
    ensures r.Some? ==> r.value in sites && sites[r.value].name == name
    ensures r.None? <==> forall k :: k in sites ==> sites[k].name != name
  {
    if exists k :: k in sites && sites[k].name == name then
      Some(var k :| k in sites && sites[k].name == name; k)
    else
      None
  }

  // Lengths as the program measures them.

  /** The length of s as .NET counts it: UTF-16 code units, two for a character beyond U+FFFF. */
  function Utf16Length(s: string): (n: nat)
    ensures |s| <= n <= 2 * |s|
  {
    if |s| == 0 then 0
    else (if s[0] as int < 0x1_0000 then 1 else 2) + Utf16Length(s[1..])
  }

  /** The code units match the characters exactly when no character lies beyond U+FFFF. */
  lemma {:induction false} Utf16LengthIsCharCount(s: string)
    ensures Utf16Length(s) == |s| <==> forall i :: 0 <= i < |s| ==> s[i] as int < 0x1_0000
  {
    if |s| > 0 {
      Utf16LengthIsCharCount(s[1..]);
      assert forall i :: 0 < i < |s| ==> s[i] == s[1..][i - 1];
    }
  }

  /** Code units add up over concatenation. */
  lemma {:induction false} Utf16LengthConcat(a: string, b: string)
    ensures Utf16Length(a + b) == Utf16Length(a) + Utf16Length(b)
    decreases |a|
  {
    if |a| > 0 {
      assert (a + b)[0] == a[0];
      assert (a + b)[1..] == a[1..] + b;
      Utf16LengthConcat(a[1..], b);
    } else {
      assert a + b == b;
    }
  }

  /** The live checks of sites and users succeed exactly when the lookups by name find a row. */
  lemma LiveChecksMatchLookups(db: Db, s: SiteHandle, u: UserHandle)
    ensures SiteLive(db, s) <==> FindSite(db.sites, s.site.name).Some?
    ensures UserLive(db, u) <==> FindUser(db.users, u.siteId, u.username).Some?
  {
  }

  // Integrity of a consistent store: keys, unique indexes, foreign keys and the
  // domain rules the operations establish.

  predicate WellFormedSite(s: Site)
  {
    && MinSiteName <= Utf16Length(s.name) <= MaxSiteName
    && MinTimeZone <= s.timezone <= MaxTimeZone
    && s.sessionExpiration > 0
    && s.minimumBidIncrement >= 0.0
  }

  predicate WellFormedUsername(name: string)
  {
    MinUserName <= Utf16Length(name) <= MaxUserName
  }

  /**
   Every key was issued by its table's identity counter: it lies between 1, where the
   counter starts, and the counter's next value. Key 0 is never a stored row.
   */
  ghost predicate KeysIssued(db: Db)
  {
    && (forall k :: k in db.sites ==> 1 <= k < db.nextSiteId)
    && (forall k :: k in db.users ==> 1 <= k < db.nextUserId)
    && (forall k :: k in db.auctions ==> 1 <= k < db.nextAuctionId)
    && 1 <= db.nextSiteId && 1 <= db.nextUserId && 1 <= db.nextAuctionId
  }

  /** Site records are well formed and their names unique (index NameUnique, Data.cs:108). */
  ghost predicate SitesValid(db: Db)
  {
    && (forall k :: k in db.sites ==> WellFormedSite(db.sites[k]))
    && (forall k1, k2 :: k1 in db.sites && k2 in db.sites && db.sites[k1].name == db.sites[k2].name ==> k1 == k2)
  }

  /** Users belong to a site, have well-formed names, and names are unique across the store (the check of Data.cs:271). */
  ghost predicate UsersValid(db: Db)
  {
    && (forall k :: k in db.users ==> db.users[k].siteId in db.sites && WellFormedUsername(db.users[k].username))
    && (forall k1, k2 :: k1 in db.users && k2 in db.users && db.users[k1].username == db.users[k2].username ==> k1 == k2)
  }

  /** A session is keyed by its user, lives on its user's site, and its user has recorded it. */
  ghost predicate SessionsValid(db: Db)
  {
    forall k :: k in db.sessions ==>
      && db.sessions[k].userId == k
      && k in db.users
      && db.users[k].siteId == db.sessions[k].siteId
      && db.users[k].sessionId == Some(k)
  }

  /** An auction's site, seller and winner exist; seller and winner are users of the auction's site and differ; the standing is consistent. */
  ghost predicate AuctionFits(db: Db, a: Auction)
  {
    && a.siteId in db.sites
    && a.seller in db.users
    && db.users[a.seller].siteId == a.siteId
    && |a.description| > 0
    && (a.standing.winner.Some? ==>
          && a.standing.winner.value in db.users
          && db.users[a.standing.winner.value].siteId == a.siteId
          && a.standing.winner.value != a.seller)
    && Consistent(a.standing)
  }

  ghost predicate AuctionsValid(db: Db)
  {
    forall k :: k in db.auctions ==> AuctionFits(db, db.auctions[k])
  }

  ghost predicate Valid(db: Db)
  {
    && KeysIssued(db)
    && SitesValid(db)
    && UsersValid(db)
    && SessionsValid(db)
    && AuctionsValid(db)
  }

  /** A freshly created store is consistent. */
  lemma EmptyIsValid()
    ensures Valid(Empty())
  {
  }
}

=== FILE: user.dfy ===
/**
 The operations of a User handle (Data.cs:351-469): the auctions it has won and its
 deletion. Both start with the user's live check, by site and name.
 */
module Users {
  import opened Wrappers
  import opened Bidding
  import opened Store

  /** Whether auction a is led by a user whose name is username. */
  ghost predicate LedBy(db: Db, a: Auction, username: string)
  {
    a.standing.winner.Some? && a.standing.winner.value in db.users && db.users[a.standing.winner.value].username == username
  }

  /**
   User.WonAuctions (Data.cs:386-404): the auctions whose leader carries this user's name
   and whose end is now or earlier. The query matches on the name alone, on every site.
   */
  ghost function WonAuctions(db: Db, h: UserHandle, now: int): (r: Result<set<AuctionId>, Error>)
    ensures r.Err? <==> !UserLive(db, h)
    ensures r.Err? ==> r.error == InvalidOperation
    ensures r.Ok? ==> forall k :: k in r.value <==>
              k in db.auctions && LedBy(db, db.auctions[k], h.username) && db.auctions[k].endsOn <= now
  {
    if !UserLive(db, h) then Err(InvalidOperation)
    else Ok(set k | k in db.auctions && LedBy(db, db.auctions[k], h.username) && db.auctions[k].endsOn <= now)
  }

  /** Whether user uid sells an auction that has not ended (Data.cs:411-423; the two loops test the same). */
  predicate SellsOpenAuction(db: Db, uid: UserId, now: int)
  {
    exists k :: k in db.auctions && db.auctions[k].seller == uid && db.auctions[k].endsOn >= now
  }

  /** The auction with its leader dropped if that leader is uid (Data.cs:428-434). */
  function ClearWinner(a: Auction, uid: UserId): (r: Auction)
    ensures r.standing.winner != Some(uid)
    ensures a.standing.winner != Some(uid) ==> r == a
    ensures r.(standing := a.standing) == a
    ensures r.standing.priceNow == a.standing.priceNow && r.standing.maximumAmount == a.standing.maximumAmount
  {
    if a.standing.winner == Some(uid) then a.(standing := a.standing.(winner := None)) else a
  }

  /**
   User.Delete (Data.cs:405-441). Refused while the user sells an auction that has not
   ended. Otherwise the auctions it leads lose their leader but stay, the user row goes,
   and the cascades take its session and the (ended) auctions it sold. A leader that
   would be left pointing at a removed row breaks the foreign key of Data.cs:81-82.
   */
  ghost function Delete(db: Db, h: UserHandle, now: int): (r: Result<Db, Error>)
    ensures !UserLive(db, h) ==> r == Err(InvalidOperation)
    ensures SellsOpenAuction(db, h.id, now) ==> r == Err(InvalidOperation)
    ensures Valid(db) && h.id in db.users && Named(db.users[h.id], h.siteId, h.username) && !SellsOpenAuction(db, h.id, now) ==>
              r.Ok?
    ensures r.Ok? ==>
              var db' := r.value;
              && UserLive(db, h)
              && (forall k :: k in db'.users <==> k in db.users && !Named(db.users[k], h.siteId, h.username))
              && (forall k :: k in db'.users ==> db'.users[k] == db.users[k])
              && (forall k :: k in db'.sessions <==> k in db.sessions && db.sessions[k].userId in db'.users)
              && (forall k :: k in db'.sessions ==> db'.sessions[k] == db.sessions[k])
              && (forall k :: k in db'.auctions <==> k in db.auctions && db.auctions[k].seller in db'.users)
              && (forall k :: k in db'.auctions ==>
                    && db'.auctions[k].standing.winner != Some(h.id)
                    && db'.auctions[k] == ClearWinner(db.auctions[k], h.id))
              && db'.sites == db.sites
  {
    if !UserLive(db, h) then Err(InvalidOperation)
    else if SellsOpenAuction(db, h.id, now) then Err(InvalidOperation)
    else
      var users := map k | k in db.users && !Named(db.users[k], h.siteId, h.username) :: db.users[k];
      var sessions := map k | k in db.sessions && db.sessions[k].userId in users :: db.sessions[k];
      var auctions := map k | k in db.auctions && db.auctions[k].seller in users :: ClearWinner(db.auctions[k], h.id);
      if exists k :: k in auctions && auctions[k].standing.winner.Some? && auctions[k].standing.winner.value !in users then
        Err(SaveChangesError(UpdateFault(Some(ForeignKeyConflict))))
      else
        Ok(db.(users := users, sessions := sessions, auctions := auctions))
  }
}

=== FILE: wrappers.dfy ===
/** Failure-carrying datatypes shared by the whole model. */
module Wrappers {

  /** A value that may be missing: a C# reference that may be null, or a lookup that found nothing. */
  datatype Option<+T> = None | Some(value: T)

  /** The outcome of an operation that either returns a value or raises an error. */
  datatype Result<+T, +E> = Ok(value: T) | Err(error: E)

  /** The outcome of a validation that returns nothing or raises an error. */
  datatype Outcome<+E> = Pass | Fail(error: E)
}
